=== FILE: README.md ===
# Healthcare assistant core, modelled in Dafny

The system is a multilingual healthcare assistant. Its core has three parts, and this project models each one as pure functions over immutable values.

1. **The flat-file record store** (`data_manager.py`). It keeps appointments, prescriptions, health records, reminders, medications, support tickets, saved hospitals, health profiles and usage analytics. Each kind lives in a JSON file.
   - A file's contents are a `Table` (`seq<Record>`, where a `Record` is a `map<string, Json>`).
   - Every operation takes the old table and returns its reply together with the new table.
   - The analytics file is a record of counter maps (`map<string, nat>`).
2. **The user store and authentication** (`auth_manager.py`). This covers salted password hashes, look-up by normalised e-mail address, and the "safe" view of an account that never carries the hash or the salt. It also covers the guarded update and the guarded password change.
3. **The AI gateway** (`ai_helper.py`). This is the three-attempt retry wrapper and the public calls built on it:
   - translation, chat, transcription, symptom analysis and hospital search;
   - the reply shapes they return when every attempt fails;
   - the rule that selects the stronger model for doctors. `user_role` defaults to "Patient", so a call that names no role uses the fast model.

Modules:

- `Values`: the JSON value universe, `Option`/`Result`, and Python's `.get`, truthiness and `str()`.
- `Text`: ASCII lowering, `strip()` and substring containment.
- `Seqs`: order-preserving selection, first-match search and counting.
- `Store`: the generic `add_*`, `get_*`, `update_*` and `delete_*` behaviour of every table.
- `Records`: the entity rows and the searches over them.
- `Profiles`: the de-duplicating hospital insert, the health-profile upsert and the AI context summary.
- `Analytics`: the usage counters and the public statistics.
- `Auth`: the user store and authentication.
- `Retry`: the `with_retry` wrapper.
- `Gateway`: the AI calls.

External effects become parameters:

- **Clock readings.** `Records.Clock` holds the date, the ISO timestamp and the timestamp one day later; other timestamps are plain strings.
- **Hashing.** SHA-256 is a function `digest`, and the random salt is a string `freshSalt`.
- **The model provider.** `Gateway.Provider` is a function from a request and an attempt number to a returned text or a raised error.
- **Parsing and file reading.** `json.loads` and the audio-file read are parameters of the same shape.
- **Sleeping.** The retry wrapper's sleeps are recorded as a list of durations instead of being slept.

Some behaviours of the code come out of the proofs:

- **Ids can repeat after a delete.** An `add_*` numbers its new row `len(table) + 1`. Without deletions the ids are `1..n` and pairwise distinct (`Store.SequentialIdsDistinct`). After a deletion the next add can reuse an id that is still in the table (`Store.DeleteThenAddReusesId`).
- **The retry wrapper ignores what was raised.** It retries every exception the same way (`Retry.RetryIgnoresErrorKind`).
- **Bad model output is retried.** In symptom analysis, a reply that is not JSON, or is JSON but not an object, fails the attempt and is retried (`Gateway.AnalyzeAttemptFacts`).

## Model

| member | source | states |
|---|---|---|
| `Values.Get` | data_manager.py:344 | `d.get(k)` is the stored value when the key is present and `None` otherwise |
| `Values.GetOr` | data_manager.py:438-451 | `d.get(k, default)` is the stored value when present and the default otherwise |
| `Values.IntToString` | data_manager.py:486 | `str(i)` of an integer is a minus sign exactly for negatives, then decimal digits that read back as the magnitude (`Values.DigitsValue`), with no leading zero |
| `Text.Lower` | data_manager.py:68-70 | lowering keeps the length and lowers each character on its own (ASCII letters only) |
| `Text.LowerIdempotent` | data_manager.py:68-70 | lowering an already lowered string changes nothing |
| `Text.StripBounds` | auth_manager.py:44 | the cut-off prefix and suffix are all whitespace, and the kept part starts and ends with non-whitespace; an all-space string is cut to nothing |
| `Text.Strip` | auth_manager.py:44 | the stripped string is no longer than the input and neither begins nor ends with whitespace |
| `Text.NormalisedIsLowered` | auth_manager.py:44-45 | an address lowered then stripped stays the same when lowered again, so the stored-side `.lower()` in the comparison finds it |
| `Text.ContainsSpec` | data_manager.py:68-70 | `needle in hay` holds exactly when the needle occurs at some offset of the haystack |
| `Seqs.Filter` | data_manager.py:68-70 | a comprehension keeps only elements of the input that satisfy the condition |
| `Seqs.FilterSelectsInOrder` | data_manager.py:68-70 | the comprehension's result is exactly the satisfying elements, taken in their original order at strictly increasing positions, and every satisfying position is taken |
| `Seqs.FilterAll` | data_manager.py:91 | a comprehension whose condition holds everywhere returns the input unchanged |
| `Seqs.FilterSnoc` | data_manager.py:59-60 | filtering a table with one row appended is the old result, plus the new row when it satisfies the condition |
| `Seqs.FilterFront` | data_manager.py:67-70 | filtering a non-empty sequence is its first element, when it satisfies the condition, followed by the filter of the rest |
| `Seqs.FilterAppend` | data_manager.py:566-570 | filtering distributes over concatenation |
| `Seqs.FirstIndex` | auth_manager.py:74-77 | the scan-and-break loop stops at the first element that satisfies the condition, or runs off the end when none does |
| `Seqs.FirstIndexIs` | auth_manager.py:74-77 | any position preceded only by non-matches and holding a match (or the end) is where the scan stops |
| `Seqs.CountReplace` | data_manager.py:455-456 | replacing an element by one that matches the same way keeps the number of matches |
| `Seqs.FirstIndexReplaced` | data_manager.py:455-456 | replacing the first match by another match keeps the first match at the same position |
| `Seqs.FirstIndexAppended` | data_manager.py:457-458 | appending keeps an existing first match; without one, the appended element is found when it matches |
| `Seqs.FirstIndexAgree` | data_manager.py:467-469 | changing one element in a way that matches alike leaves the first match where it was |
| `Store.Add` | data_manager.py:43-61 | the new row is the caller's fields plus `id = len(table) + 1`, appended at the end, with every earlier row untouched |
| `Store.Select` | data_manager.py:63-72 | with no filter (`None` or empty) the whole table, whatever its rows hold; otherwise exactly the rows whose searched fields contain the filter ignoring case, in table order, provided every field the short-circuiting `or` reads is a string |
| `Store.Patch` | data_manager.py:80-82 | a patch writes the keys the row already has and ignores all other keys, leaving the key set unchanged |
| `Store.UpdateById` | data_manager.py:74-86 | only the first row with the id is patched and every other row stays the same; no matching row gives `None` and an unchanged table; only the rows the scan reads need an `id` |
| `Store.HasIdsScan` | data_manager.py:78-79 | a table whose rows all carry an `id` can be scanned for any id |
| `Store.DeleteById` | data_manager.py:88-93 | every row with the id is removed and the other rows keep their order |
| `Store.DeleteAbsent` | data_manager.py:88-93 | deleting an id that no row carries leaves the table as it was |
| `Store.AddKeepsIds` | data_manager.py:47-61 | an add keeps every row carrying an `id` |
| `Store.UpdateKeepsIds` | data_manager.py:78-82 | an update keeps every row carrying an `id` |
| `Store.DeleteKeepsIds` | data_manager.py:91 | a delete keeps every row carrying an `id` |
| `Store.AddKeepsTextFields` | data_manager.py:47-61 | an add whose new row has string search fields keeps the table searchable |
| `Store.AddKeepsSequential` | data_manager.py:48 | a table numbered 1..n stays numbered 1..n+1 after an add |
| `Store.SequentialIdsDistinct` | data_manager.py:48 | in a table numbered 1..n no two rows share an id |
| `Store.DeleteThenAddReusesId` | data_manager.py:48 | add, add, delete id 1, add leaves two rows with id 2 |
| `Records.AddAppointment` | data_manager.py:43-61 | an appointment is appended with the next id; it stores the caller's names, date, time, language and notes, status "Scheduled" and the clock's timestamp, under exactly those keys |
| `Records.AddPrescription` | data_manager.py:95-114 | a prescription is appended with the next id; it stores the caller's patient and doctor names, medication, dosage, instructions, language and translation text, today's date and the timestamp, under exactly those keys |
| `Records.AddHealthRecord` | data_manager.py:147-164 | a health record is appended with the next id and the caller's patient name, type, description and language; `report_data or {}` stores an empty object for a missing or falsy report and the report itself otherwise |
| `Records.AddReminder` | data_manager.py:197-215 | a reminder is appended with the next id and the caller's patient name, type, message, language and phone number, status "Pending", scheduled one day after now |
| `Records.AddMedication` | data_manager.py:274-293 | a medication is appended with the next id and the caller's patient name, medication name, dosage, frequency, start date and notes, status "Active"; the end date is `null` when none was given and the given date otherwise |
| `Records.AddSupportTicket` | data_manager.py:388-406 | a ticket is appended with the next id, the caller's user id, name, e-mail, category, description and language, and status "Open" |
| `Records.MatchesAppointment` | data_manager.py:68-70 | the appointment search matches when the patient name or the doctor name contains the filter, ignoring case |
| `Records.MatchesPatient` | data_manager.py:120-122 | the patient search matches exactly when the patient name contains the filter, ignoring case |
| `Records.SelectMembers` | data_manager.py:63-72 | every selected row is a matching table row, and every matching table row is selected |
| `Records.AppointmentMembers` | data_manager.py:63-72 | a filtered appointment search returns exactly the rows whose patient or doctor name matches |
| `Records.PatientMembers` | data_manager.py:116-124 | a filtered patient search returns exactly the rows whose patient name matches |
| `Records.GetAppointments` | data_manager.py:63-72 | no filter returns any table unchanged; a filter returns, in order, exactly the rows whose patient or doctor name contains it ignoring case, and needs `doctor_name` to be a string only on rows whose patient name missed |
| `Records.GetByPatient` | data_manager.py:116-124 | with no filter the prescription, health-record, reminder and medication searches return any table unchanged; with one, in order, exactly the rows whose patient name contains the filter |
| `Records.SelectByUser` | data_manager.py:364-371 | a truthy user id selects, in order, exactly the rows stored under it; a falsy one returns every row |
| `Records.AddThenGetAppointment` | data_manager.py:43-72 | a new appointment whose names contain the filter comes last in the search results, and the earlier results are unchanged |
| `Records.PatientSearchIsFilter` | data_manager.py:116-124 | a filtered patient search is exactly the in-order selection of the rows whose patient name contains the filter |
| `Records.AddThenGetByPatient` | data_manager.py:116-124 | after adding a row with a string patient name, the patient search returns its earlier results followed by the new row exactly when the name contains the filter, ignoring case |
| `Records.AddThenGetPrescription` | data_manager.py:95-124 | a prescription just added is found, last, by exactly the filters its patient name contains |
| `Records.AddThenGetHealthRecord` | data_manager.py:147-174 | a health record just added is found, last, by exactly the filters its patient name contains |
| `Records.AddThenGetReminder` | data_manager.py:197-225 | a reminder just added is found, last, by exactly the filters its patient name contains |
| `Records.AddThenGetMedication` | data_manager.py:274-303 | a medication just added is found, last, by exactly the filters its patient name contains |
| `Records.AddTwiceDistinctIds` | data_manager.py:47-48 | two identical adds create two rows with different ids, so adds never de-duplicate |
| `Records.AddAppointmentKeepsSearchable` | data_manager.py:47-61 | adding an appointment keeps the name fields strings, so the search stays defined |
| `Records.SearchThree` | data_manager.py:63-72 | searching "a" among rows for "A", "B" (doctor "D") and "A" returns the first and third rows |
| `Profiles.AddSavedHospital` | data_manager.py:340-362 | an existing (user, hospital name) pair gives "Hospital already saved" and no change; otherwise one row with the next id and every field the caller gave is appended; afterwards the pair is always stored |
| `Profiles.AddSavedHospitalKeepsUnique` | data_manager.py:344-362 | saving a hospital never creates a second row for the same user and hospital name |
| `Profiles.SaveHospitalTwice` | data_manager.py:344-346 | saving the same hospital twice refuses the second call and leaves the table as the first call left it |
| `Profiles.ProfileRow` | data_manager.py:435-453 | a stored profile has exactly the fourteen profile fields plus id, user id and timestamp, each field taken from the input or its default |
| `Profiles.SaveHealthProfile` | data_manager.py:425-461 | the user's first profile is replaced in place and keeps its id; a user without one gets a profile appended with id `len + 1`; only the replaced row needs an id |
| `Profiles.SaveHealthProfileCount` | data_manager.py:429-458 | an upsert never adds a second profile for the user: one or none becomes exactly one |
| `Profiles.GetHealthProfile` | data_manager.py:463-471 | returns the first profile stored under the user id, or `None` exactly when none is stored |
| `Profiles.SaveThenGetProfile` | data_manager.py:425-471 | reading a profile back right after saving it returns what was saved |
| `Profiles.SaveKeepsOtherProfiles` | data_manager.py:425-471 | saving one user's profile leaves what every other user reads back unchanged |
| `Profiles.Lines` | data_manager.py:479-496 | the `k`-th line written is the rendering of the `k`-th checked field that is set, so the lines follow the order of the checks |
| `Profiles.RenderedStep` | data_manager.py:481-496 | the first check's line, when its field is set, goes in front of the lines of the later checks |
| `Profiles.LinesExact` | data_manager.py:481-496 | every field that is set is written as its labelled line and nothing else is; no line is written exactly when no field is set |
| `Profiles.ContextParts` | data_manager.py:479-496 | the summary lines are the renderings of the set fields among the eight, in their fixed order |
| `Profiles.JoinContainsPart` | data_manager.py:499 | every line joined with newlines occurs in the joined text |
| `Profiles.PrefixedJoinContains` | data_manager.py:499 | every line still occurs in the text after the header is put in front |
| `Profiles.GetHealthContext` | data_manager.py:473-500 | `None` when the user has no profile, an empty profile, or no summarised field set; otherwise exactly the header followed by the summary lines joined by newlines |
| `Profiles.HealthContextMentions` | data_manager.py:473-500 | the context exists exactly when the user's profile has a field set that the summary reads, and it then mentions every such line |
| `Analytics.Bump` | data_manager.py:541-543 | the counter for the key becomes its old value (or zero) plus one, and every other counter is unchanged |
| `Analytics.MapSumRemove` | data_manager.py:629 | the sum of a counter map is the same whichever key is taken out first |
| `Analytics.BumpSum` | data_manager.py:585-587 | bumping one counter raises the map's sum by exactly one |
| `Analytics.SumValues` | data_manager.py:629 | `sum(m.values())` computed key by key equals the map's sum |
| `Analytics.TrackFeatureClick` | data_manager.py:538-544 | the feature's click count goes up by one and the feature becomes a key; no other count, key or field changes |
| `Analytics.TrackLanguageUsage` | data_manager.py:546-552 | the language's count goes up by one and the language becomes a key; no other count, key or field changes |
| `Analytics.SymptomKeywordsDistinct` | data_manager.py:556-561 | the keyword list has 25 entries, all different |
| `Analytics.BumpMatched` | data_manager.py:566-570 | the keys after the scan are the old keys plus every keyword that occurs in the text |
| `Analytics.BumpMatchedEffect` | data_manager.py:566-570 | over distinct keywords, a keyword that occurs gains exactly one and every other counter keeps its value |
| `Analytics.BumpMatchedSum` | data_manager.py:566-570 | the keyword scan raises the counter total by the number of keywords found |
| `Analytics.TrackSymptomKeyword` | data_manager.py:554-572 | only the symptom counters change; a counter exists afterwards exactly when it did before or its keyword occurs in the lowered text |
| `Analytics.TrackSymptomKeywordEffect` | data_manager.py:554-572 | each keyword found in the lowered text is counted exactly once, and other counters are untouched |
| `Analytics.TrackRoleSession` | data_manager.py:574-579 | a role already counted gains one session; any other role changes nothing |
| `Analytics.TrackDailyVisit` | data_manager.py:581-589 | today's visit count and the session total each go up by one, today becomes a key, and nothing else changes |
| `Analytics.GetPublicStats` | data_manager.py:617-641 | the figures are the session total, the number of languages with a positive count, the two role counts (zero when missing), and the sums of the symptom and daily-visit counters |
| `Analytics.InitialStats` | data_manager.py:507-514 | a fresh analytics file reports all figures as zero |
| `Analytics.DailyVisitStats` | data_manager.py:585-588 | a visit adds one to both the visit total and the user total and changes no other figure |
| `Analytics.BumpMatchedStats` | data_manager.py:631-632 | bumping matched keywords adds their number to the symptoms figure and changes no other figure |
| `Analytics.SymptomStats` | data_manager.py:554-572 | symptom tracking adds the number of keywords found to the symptoms figure and changes no other figure |
| `Analytics.LanguageStats` | data_manager.py:621-622 | a language's first use adds one to the languages figure, and later uses leave it unchanged |
| `Analytics.RoleAndFeatureStats` | data_manager.py:624-626 | a counted role raises its own figure by one, an unknown role and a feature click change no figure |
| `Auth.HashPassword` | auth_manager.py:31-35 | the hash is taken over the password followed by the salt; the salt is the given one, or a fresh one when none is given |
| `Auth.HashThenVerify` | auth_manager.py:31-39 | a hash and salt made from a password always verify that password |
| `Auth.VerifyExactly` | auth_manager.py:37-39 | with a collision-free digest, a password verifies against a stored hash exactly when it is the password the hash was made from |
| `Auth.Safe` | auth_manager.py:66 | the safe view has every key of the account except the password hash and the salt, with the same values |
| `Auth.FindEmail` | auth_manager.py:72-77 | the search stops at the first account whose lowered address equals the lowered, trimmed input |
| `Auth.FindEmailTaken` | auth_manager.py:44-45 | the search finds an account exactly when some stored address matches |
| `Auth.NewUser` | auth_manager.py:50-61 | a new account has exactly the ten stored fields: the given id, the trimmed name, the normalised address, the hash and salt, the role, the caller's language and phone, the creation time, and no last login |
| `Auth.CreateUser` | auth_manager.py:41-67 | a taken address gives the duplicate error and no change; otherwise one account is appended, with the next id, the trimmed name, the normalised address, a fresh salt, the hash of password plus salt, the role, the caller's language and phone, the creation time and no login; the reply is its safe view |
| `Auth.CreateKeepsEmailsUnique` | auth_manager.py:44-63 | account creation never makes two accounts share an address |
| `Auth.AuthenticateUser` | auth_manager.py:69-89 | an unknown address gives "Email not found" and a wrong password "Incorrect password", both with no change; success sets `last_login` on the first matching account and replies with its safe view |
| `Auth.AuthenticateChangesOnlyLastLogin` | auth_manager.py:85 | a login changes nothing in the table except `last_login` |
| `Auth.CreateThenAuthenticate` | auth_manager.py:41-89 | logging in right after signing up with the same address and password succeeds and stamps the new account |
| `Auth.AuthenticateWrongPassword` | auth_manager.py:82-83 | with a collision-free digest, any password other than the account's gives "Incorrect password" |
| `Auth.GetUserByEmail` | auth_manager.py:91-100 | returns the safe view of the first account with the address, or `None` exactly when no account has it |
| `Auth.ApplyUpdate` | auth_manager.py:107-109 | every key of the update except the hash, salt and id is written, new keys included, and the rest of the account is unchanged |
| `Auth.UpdateUser` | auth_manager.py:102-114 | only the first account with the id is updated and the reply is its safe view; no such account gives "User not found" and no change |
| `Auth.UpdateKeepsProtected` | auth_manager.py:107-109 | an update never changes any account's hash, salt or id |
| `Auth.ChangePassword` | auth_manager.py:116-130 | an unknown id or a wrong current password gives its error and no change; success gives that account a fresh salt and a hash the new password verifies against, and nothing else changes |
| `Auth.ChangeThenVerify` | auth_manager.py:124-126 | with a collision-free digest, after a change only the new password verifies for the account |
| `Auth.GetAllUsersByRole` | auth_manager.py:132-141 | returns, in table order, the safe views of exactly the accounts with the role |
| `Retry.Loop` | ai_helper.py:58-66 | from a given attempt on, the loop stops at the first call that returns, sleeps after each failure but the last, and raises only after the third call |
| `Retry.WithRetry` | ai_helper.py:58-66 | at most three calls; the first call that returns decides the result and every earlier call raised; a failed run makes three calls; the sleeps are 2, 4, ... seconds, one fewer than the calls |
| `Retry.FirstSuccess` | ai_helper.py:59-61 | the first attempt whose call returns, or three when none does |
| `Retry.WithRetrySucceeds` | ai_helper.py:58-66 | the wrapper returns exactly when one of the three calls returns, and then it returns the first such value |
| `Retry.AllFailRun` | ai_helper.py:62-66 | three failures mean three calls, sleeps of 2 and 4 seconds, and the third exception re-raised |
| `Retry.SleepBound` | ai_helper.py:63-64 | the total sleep is at most six seconds and there is no sleep after the last call |
| `Retry.RetryIgnoresErrorKind` | ai_helper.py:62 | two call sequences that fail at the same attempts run the same way whatever they raise |
| `Retry.FirstSuccessAgree` | ai_helper.py:59-62 | the first successful attempt depends only on which calls raised |
| `Retry.WithRetryCongruent` | ai_helper.py:58-66 | the wrapper depends only on the outcomes of the first three calls |
| `Retry.LoopCongruent` | ai_helper.py:58-66 | the loop from any attempt depends only on the outcomes of the first three calls |
| `Gateway.Guarded` | ai_helper.py:83-86 | a guarded call returns the first value an attempt returns, or the failure reply built from the third error |
| `Gateway.TextCall` | ai_helper.py:83-86 | a text call returns the first response text within three calls, or the failure shape with the third error |
| `Gateway.TextAttemptFacts` | ai_helper.py:73-81 | a text attempt fails exactly when the provider raises, and when it succeeds it carries the response text |
| `Gateway.TextCallShape` | ai_helper.py:81-86 | a text reply has `success`, the payload key and `error` with a `None` payload on failure, and only `success` and a text payload on success |
| `Gateway.TranslateText` | ai_helper.py:72-86 | translation asks the fast model; the reply is a provider text under `translation`, or the failure shape with the third error |
| `Gateway.PrescriptionTranslation` | ai_helper.py:191-192 | a prescription is translated from the doctor's language into the patient's, as a plain translation |
| `Gateway.MedicalChat` | ai_helper.py:139-161 | chat asks the fast model; the reply is a provider text under `response`, or the failure shape with the third error |
| `Gateway.TranscribeAudio` | ai_helper.py:167-185 | transcription gives some text under `transcription`, or the failure shape with the third error, whether it came from the read or from the call |
| `Gateway.TranscribeAttemptFacts` | ai_helper.py:168-180 | a successful transcription attempt carries a text under `transcription` |
| `Gateway.SymptomModel` | ai_helper.py:94-96 | the stronger model is chosen exactly when the role is "Doctor", and the fast model otherwise |
| `Gateway.MarkSuccess` | ai_helper.py:116-118 | a parsed object gains `success = True` and keeps every other key; any other JSON value raises |
| `Gateway.Analysis` | ai_helper.py:120-133 | the reply is the first object a response parses to, marked successful; when no attempt succeeds it is the fallback with the third error; `success` tells which |
| `Gateway.AnalyzeSymptoms` | ai_helper.py:92-133 | symptom analysis uses the role's model and returns either the first parsed object marked successful or the fixed fallback |
| `Gateway.AnalyzeAttemptFacts` | ai_helper.py:115-118 | an analysis attempt succeeds exactly when the response parses to an object, and then yields that object marked successful |
| `Gateway.FallbackShape` | ai_helper.py:123-133 | the fallback has no success, an "Unknown" severity, empty lists, no urgent care and the error text |
| `Gateway.AnalyzeUsesSelectedModel` | ai_helper.py:93-96 | symptom analysis consults only the model its role selects |
| `Gateway.DefaultRoleUsesFastModel` | ai_helper.py:92-96 | with the default role "Patient" the request goes to the fast model, and the analysis depends only on the provider's fast-model answers |
| `Gateway.FindNearbyHospitals` | ai_helper.py:198-215 | hospital search puts the first parsed response under `hospitals`, or an empty list and the third error; `error` appears exactly on failure |
| `Gateway.HospitalAttemptFacts` | ai_helper.py:208-210 | a hospital attempt succeeds exactly when the response parses, and carries the parsed value |

## Left out

- File I/O. The `ensure_*`, `load_json_file`, `save_json_file`, `load_users`, `save_users` and `load_analytics` helpers are not modelled. Tables and the analytics record are passed in and returned. When a load fails, the source falls back to an empty table or to the initial counters; that fallback is simply the input the caller passes (`Analytics.Initial` is that default).
- Clock readings are parameters, as described above.
- Hashing and salt generation are parameters. SHA-256 and `secrets.token_hex` are not modelled, so collision-freedom of the digest is an explicit hypothesis (`Auth.Injective`) where a property needs it.
- The Gemini client, `json.loads`, the audio-file read and `time.sleep` are not modelled. They become parameters and a recorded sleep trace.
- The prompt texts are built exactly, but the provider's answer to a prompt is arbitrary.
- The API-key start-up check is not modelled, because it only reads the environment and configures the client.
- `SUPPORTED_LANGUAGES` is not modelled, because no modelled operation reads it.
- The pandas dataframe helpers are not modelled, because they only wrap the `get_*` results in a library type.
- `get_analytics_summary` is not modelled. It sorts counters into top-ten lists and reads the clock for the last seven days, and no other operation depends on it.
- `delete_*` always returns `True`. The model returns only the new table.
- Python's `lower()` is modelled for ASCII letters only; other characters are left as they are. Unicode case mapping is not modelled.
- JSON numbers are integers; floats are not modelled.
- `str()` of a list or a dict inside a summary line is a placeholder rather than Python's `repr`.
- Python compares `True == 1` as equal; the model's JSON equality does not. This matters only when a caller passes a boolean user id.
- Rows that would make the source raise are excluded by preconditions instead of being modelled as exceptions:
  - `Store.HasIds`: a stored row without `id` raises `KeyError` in the delete comprehension, which reads every row. `Store.UpdateById` asks only `Store.ScanHasIds`: the rows its scan reads, up to and including the first match, have an `id`. `Profiles.SaveHealthProfile` asks only `Profiles.UpdatedRowHasId`.
  - `Store.SearchReadable`: a non-string name field raises `AttributeError` on `.lower()`. Only filtered searches ask it, and only of the fields the `or` chain reads: a row's `doctor_name` is read only when its `patient_name` missed. An unfiltered `get_*` reads no field and accepts any table. `Store.TextFieldsOk`, which asks every searched field to be a string, is the invariant the add-then-search lemmas carry, and it implies `Store.SearchReadable`.
  - `Auth.WellFormed`: an account without a string e-mail, hash or salt, or without an id or role, raises the same way. Every operation on the user table requires this of every account, but each reads less. `create_user` reads e-mails up to the first match, or all of them when none matches, and `get_all_users_by_role` reads every role. The scans of `authenticate_user`, `get_user_by_email`, `update_user` and `change_password` stop at the first match, and only the matched account's hash and salt are read. A table whose unread accounts or fields are malformed is accepted by the source and excluded by the model.
- Default arguments are not modelled; every caller passes every parameter. The source's defaults are `notes=""`, `translated_text=""`, `report_data=None`, `phone_number=""`, `end_date=None`, `distance_km=None`, `language="English"`, `phone=""`, `health_context=None`, `user_role="Patient"`, `specialty=None`, `severity_level=None`, `filter_by=None`, `patient_name=None`, `user_id=None` and `salt=None`. `Gateway.DefaultRole` names the one default that changes behaviour, and `Gateway.DefaultRoleUsesFastModel` states its effect.
- Concurrent writers to the same file are not modelled. The source assumes a single writer.
- `Text.Strip`: the contract says only that the result is no longer than the input and is trimmed at both ends. `Text.StripBounds` states which characters are cut.
- `Seqs.Filter`: the contract says only that the result is a subset of matching elements. `Seqs.FilterSelectsInOrder` states order and completeness.
- `Analytics.TrackSymptomKeyword`: the contract states only which counters exist afterwards. `Analytics.TrackSymptomKeywordEffect` states the count of each one.
- `Gateway.TranslateText`: on success the contract names some returned call, not the first one. `Gateway.TextCall` states that it is the first.
- `Gateway.PrescriptionTranslation`: on success the contract names some returned call, not the first one. `Gateway.TextCall` states that it is the first.
- `Gateway.MedicalChat`: on success the contract names some returned call, not the first one. `Gateway.TextCall` states that it is the first.
- `Gateway.TranscribeAudio`: on success the contract says only that some text is returned, not which call's text.
- `Gateway.TranscribeAttemptFacts`: on success the contract says only that some text is carried, not which call's text.

=== FILE: analytics.dfy ===
/** Anonymous usage counters: maps from a name (feature, language, symptom
    keyword, role, day) to how often it was seen, plus a running session
    total, and the public statistics derived from them. Each `track_*` call
    loads the counters, bumps some of them by one and stores them back; here
    it is a pure function from the old counters to the new. */
module Analytics {
  import opened Text
  import opened Seqs

  type Counters = map<string, nat>

  datatype Analytics = Analytics(
    featureClicks: Counters, languageUsage: Counters, symptomKeywords: Counters,
    roleSessions: Counters, dailyVisits: Counters, totalSessions: nat)

  /** The counters a fresh analytics file starts with (also what a failed load
      falls back to): everything empty, both roles at zero. */
  const Initial: Analytics :=
    Analytics(map[], map[], map[], map["Patient" := 0, "Doctor" := 0], map[], 0)

  /** `m.get(k, 0)`. */
  function Tally(m: Counters, k: string): nat {
    if k in m then m[k] else 0
  }

  /** `if k not in m: m[k] = 0` followed by `m[k] += 1`. */
  function Bump(m: Counters, k: string): (m': Counters)
    ensures m'.Keys == m.Keys + {k}
    ensures m'[k] == Tally(m, k) + 1
    ensures forall j :: j in m && j != k ==> m'[j] == m[j]
  {
    m[k := Tally(m, k) + 1]
  }

  /** The sum of all counts: Python's `sum(m.values())`. */
  ghost function MapSum(m: Counters): nat
    decreases |m|
  {
    if m == map[] then 0
    else
      assert exists k :: k in m by {
        var k :| k in m.Keys;
      }
      var k :| k in m;
      m[k] + MapSum(m - {k})
  }

  /** The sum does not depend on which key is taken out first. */
  lemma {:induction false} MapSumRemove(m: Counters, k: string)
    requires k in m
    ensures MapSum(m) == m[k] + MapSum(m - {k})
    decreases |m|
  {
    var j :| j in m && MapSum(m) == m[j] + MapSum(m - {j});
    if j != k {
      MapSumRemove(m - {j}, k);
      MapSumRemove(m - {k}, j);
      assert m - {j} - {k} == m - {k} - {j};
    }
  }

  /** Bumping a counter raises the total of the map by exactly one. */
  lemma BumpSum(m: Counters, k: string)
    ensures MapSum(Bump(m, k)) == MapSum(m) + 1
  {
    var m' := Bump(m, k);
    MapSumRemove(m', k);
    if k in m {
      MapSumRemove(m, k);
      assert m' - {k} == m - {k};
    } else {
      assert m' - {k} == m;
    }
  }

  /** `sum(m.values())`, computed by taking the keys out one at a time. */
  method SumValues(m: Counters) returns (total: nat)
    ensures total == MapSum(m)
  {
    var rest := m;
    total := 0;
    while rest != map[]
      invariant total + MapSum(rest) == MapSum(m)
      decreases |rest|
    {
      var k :| k in rest;
      MapSumRemove(rest, k);
      total := total + rest[k];
      rest := rest - {k};
    }
  }

  /** `track_feature_click`: one more click on the feature. */
  function TrackFeatureClick(a: Analytics, feature: string): (a': Analytics)
    ensures Tally(a'.featureClicks, feature) == Tally(a.featureClicks, feature) + 1
    ensures forall k :: k != feature ==> Tally(a'.featureClicks, k) == Tally(a.featureClicks, k)
    ensures a'.featureClicks.Keys == a.featureClicks.Keys + {feature}
    ensures a' == a.(featureClicks := a'.featureClicks)
  {
    a.(featureClicks := Bump(a.featureClicks, feature))
  }

  /** `track_language_usage`: one more use of the language. */
  function TrackLanguageUsage(a: Analytics, language: string): (a': Analytics)
    ensures Tally(a'.languageUsage, language) == Tally(a.languageUsage, language) + 1
    ensures forall k :: k != language ==> Tally(a'.languageUsage, k) == Tally(a.languageUsage, k)
    ensures a'.languageUsage.Keys == a.languageUsage.Keys + {language}
    ensures a' == a.(languageUsage := a'.languageUsage)
  {
    a.(languageUsage := Bump(a.languageUsage, language))
  }

  /** The keywords `track_symptom_keyword` looks for, in the order it checks
      them: nineteen English words and six Hindi ones. */
  const SymptomKeywords: seq<string> := [
    "headache", "fever", "cough", "cold", "pain", "fatigue", "nausea",
    "dizziness", "chest", "breathing", "stomach", "back", "joint",
    "throat", "skin", "allergy", "infection", "weakness", "anxiety",
    "\U{938}\U{93F}\U{930}\U{926}\U{930}\U{94D}\U{926}",
    "\U{92C}\U{941}\U{916}\U{93E}\U{930}",
    "\U{916}\U{93E}\U{902}\U{938}\U{940}",
    "\U{926}\U{930}\U{94D}\U{926}",
    "\U{925}\U{915}\U{93E}\U{928}",
    "\U{91A}\U{915}\U{94D}\U{915}\U{930}"]

  predicate Distinct(s: seq<string>) {
    forall i, j :: 0 <= i < j < |s| ==> s[i] != s[j]
  }

  /** Each keyword is counted at most once per call. */
  lemma SymptomKeywordsDistinct()
    ensures |SymptomKeywords| == 25
    ensures Distinct(SymptomKeywords)
  {
  }

  /** The keywords occurring in `hay`. */
  function OccursIn(hay: string): string -> bool {
    kw => Contains(hay, kw)
  }

  /** Bumps, in order, the counter of every keyword that occurs in `hay`. */
  function BumpMatched(m: Counters, kws: seq<string>, hay: string): (m': Counters)
    ensures forall k :: k in m' <==> k in m || (k in kws && Contains(hay, k))
    decreases |kws|
  {
    if kws == [] then m
    else
      var m1 := if Contains(hay, kws[0]) then Bump(m, kws[0]) else m;
      assert kws == [kws[0]] + kws[1..];
      BumpMatched(m1, kws[1..], hay)
  }

  /** Over distinct keywords: a matched keyword's counter goes up by one, an
      unmatched one's and every other counter stay as they were. */
  lemma {:induction false} BumpMatchedEffect(m: Counters, kws: seq<string>, hay: string)
    requires Distinct(kws)
    ensures forall i :: 0 <= i < |kws| ==>
      Tally(BumpMatched(m, kws, hay), kws[i]) == Tally(m, kws[i]) + (if Contains(hay, kws[i]) then 1 else 0)
    ensures forall k :: k in m && k !in kws ==> BumpMatched(m, kws, hay)[k] == m[k]
    decreases |kws|
  {
    if kws != [] {
      var m1 := if Contains(hay, kws[0]) then Bump(m, kws[0]) else m;
      var rest := kws[1..];
      BumpMatchedEffect(m1, rest, hay);
      var r := BumpMatched(m1, rest, hay);
      assert r == BumpMatched(m, kws, hay);
      assert kws[0] !in rest by {
        forall j | 0 <= j < |rest| ensures rest[j] != kws[0] {
          assert rest[j] == kws[j + 1];
        }
      }
      forall i | 0 <= i < |kws|
        ensures Tally(r, kws[i]) == Tally(m, kws[i]) + (if Contains(hay, kws[i]) then 1 else 0)
      {
        if i > 0 {
          assert kws[i] == rest[i - 1];
          assert kws[i] != kws[0];
        }
      }
    }
  }

  /** Bumping the matched keywords raises the total by the number matched. */
  lemma {:induction false} BumpMatchedSum(m: Counters, kws: seq<string>, hay: string)
    ensures MapSum(BumpMatched(m, kws, hay)) == MapSum(m) + Count(kws, OccursIn(hay))
    decreases |kws|
  {
    if kws != [] {
      var m1 := if Contains(hay, kws[0]) then Bump(m, kws[0]) else m;
      BumpMatchedSum(m1, kws[1..], hay);
      if Contains(hay, kws[0]) {
        BumpSum(m, kws[0]);
      }
      assert kws == [kws[0]] + kws[1..];
      FilterAppend([kws[0]], kws[1..], OccursIn(hay));
      assert Filter([kws[0]], OccursIn(hay)) == Filter([], OccursIn(hay)) + (if OccursIn(hay)(kws[0]) then [kws[0]] else []);
    }
  }

  /** `track_symptom_keyword`: every keyword occurring in the lowered text is
      counted once. */
  function TrackSymptomKeyword(a: Analytics, text: string): (a': Analytics)
    ensures forall k :: k in a'.symptomKeywords <==>
      k in a.symptomKeywords || (k in SymptomKeywords && Contains(Lower(text), k))
    ensures a' == a.(symptomKeywords := a'.symptomKeywords)
  {
    a.(symptomKeywords := BumpMatched(a.symptomKeywords, SymptomKeywords, Lower(text)))
  }

  /** The per-keyword effect of `track_symptom_keyword`. */
  lemma TrackSymptomKeywordEffect(a: Analytics, text: string)
    ensures var a' := TrackSymptomKeyword(a, text);
      && (forall i :: 0 <= i < |SymptomKeywords| ==>
           Tally(a'.symptomKeywords, SymptomKeywords[i])
             == Tally(a.symptomKeywords, SymptomKeywords[i])
                + (if Contains(Lower(text), SymptomKeywords[i]) then 1 else 0))
      && (forall k :: k in a.symptomKeywords && k !in SymptomKeywords ==>
           a'.symptomKeywords[k] == a.symptomKeywords[k])
  {
    SymptomKeywordsDistinct();
    BumpMatchedEffect(a.symptomKeywords, SymptomKeywords, Lower(text));
  }

  /** `track_role_session`: only a role already counted is bumped; any other
      role is ignored. */
  function TrackRoleSession(a: Analytics, role: string): (a': Analytics)
    ensures role !in a.roleSessions ==> a' == a
    ensures role in a.roleSessions ==>
      a' == a.(roleSessions := a.roleSessions[role := a.roleSessions[role] + 1])
  {
    if role in a.roleSessions then a.(roleSessions := Bump(a.roleSessions, role)) else a
  }

  /** `track_daily_visit`: one more visit on `today` (the caller's clock
      reading) and one more session overall. */
  function TrackDailyVisit(a: Analytics, today: string): (a': Analytics)
    ensures Tally(a'.dailyVisits, today) == Tally(a.dailyVisits, today) + 1
    ensures forall k :: k != today ==> Tally(a'.dailyVisits, k) == Tally(a.dailyVisits, k)
    ensures a'.dailyVisits.Keys == a.dailyVisits.Keys + {today}
    ensures a'.totalSessions == a.totalSessions + 1
    ensures a' == a.(dailyVisits := a'.dailyVisits, totalSessions := a'.totalSessions)
  {
    a.(dailyVisits := Bump(a.dailyVisits, today), totalSessions := a.totalSessions + 1)
  }

  /** The landing page's figures. */
  datatype PublicStats = PublicStats(
    totalUsers: nat, languagesUsed: nat, patientsHelped: nat,
    doctorsAssisted: nat, symptomsAnalyzed: nat, totalVisits: nat)

  /** The languages used at least once. */
  function UsedLanguages(m: Counters): set<string> {
    set l | l in m && m[l] > 0
  }

  /** What `get_public_stats` reports, stated directly. */
  ghost function StatsOf(a: Analytics): PublicStats {
    PublicStats(
      a.totalSessions, |UsedLanguages(a.languageUsage)|,
      Tally(a.roleSessions, "Patient"), Tally(a.roleSessions, "Doctor"),
      MapSum(a.symptomKeywords), MapSum(a.dailyVisits))
  }

  /** `get_public_stats`: the session total, the number of languages with a
      positive count, the two role counts (zero when missing), and the sums
      of the symptom and daily-visit counters. */
  method GetPublicStats(a: Analytics) returns (s: PublicStats)
    ensures s == StatsOf(a)
    ensures s.totalUsers == a.totalSessions
    ensures s.languagesUsed == |UsedLanguages(a.languageUsage)|
  {
    var visits := SumValues(a.dailyVisits);
    var symptoms := SumValues(a.symptomKeywords);
    s := PublicStats(
      a.totalSessions, |UsedLanguages(a.languageUsage)|,
      Tally(a.roleSessions, "Patient"), Tally(a.roleSessions, "Doctor"),
      symptoms, visits);
  }

  /** A fresh analytics file reports all zeros. */
  lemma InitialStats()
    ensures StatsOf(Initial) == PublicStats(0, 0, 0, 0, 0, 0)
  {
    assert UsedLanguages(map[]) == {};
  }

  /** A visit adds one to both the visit total and the session total and
      changes no other figure. */
  lemma DailyVisitStats(a: Analytics, today: string)
    ensures var s, s' := StatsOf(a), StatsOf(TrackDailyVisit(a, today));
      s' == s.(totalVisits := s.totalVisits + 1, totalUsers := s.totalUsers + 1)
  {
    BumpSum(a.dailyVisits, today);
  }

  /** Bumping matched keywords changes only the analysed-symptoms figure. */
  lemma BumpMatchedStats(a: Analytics, kws: seq<string>, hay: string)
    ensures var s, s' := StatsOf(a), StatsOf(a.(symptomKeywords := BumpMatched(a.symptomKeywords, kws, hay)));
      s' == s.(symptomsAnalyzed := s.symptomsAnalyzed + Count(kws, OccursIn(hay)))
  {
    BumpMatchedSum(a.symptomKeywords, kws, hay);
  }

  /** Symptom tracking adds to the analysed total exactly the number of
      keywords found, and changes no other figure. */
  lemma SymptomStats(a: Analytics, text: string)
    ensures var s, s' := StatsOf(a), StatsOf(TrackSymptomKeyword(a, text));
      s' == s.(symptomsAnalyzed := s.symptomsAnalyzed + Count(SymptomKeywords, OccursIn(Lower(text))))
  {
    BumpMatchedStats(a, SymptomKeywords, Lower(text));
  }

  /** A language's first use adds it to the languages count; later uses do
      not change the count. */
  lemma LanguageStats(a: Analytics, language: string)
    ensures var s, s' := StatsOf(a), StatsOf(TrackLanguageUsage(a, language));
      s' == s.(languagesUsed := s.languagesUsed + (if Tally(a.languageUsage, language) == 0 then 1 else 0))
  {
    var m := a.languageUsage;
    var m' := Bump(m, language);
    if Tally(m, language) == 0 {
      assert UsedLanguages(m') == UsedLanguages(m) + {language};
      assert language !in UsedLanguages(m);
    } else {
      assert UsedLanguages(m') == UsedLanguages(m);
    }
  }

  /** A counted role adds one to its own figure; feature clicks never show
      in the public figures. */
  lemma RoleAndFeatureStats(a: Analytics, role: string, feature: string)
    ensures var s := StatsOf(a);
      && StatsOf(TrackFeatureClick(a, feature)) == s
      && (role == "Patient" && role in a.roleSessions ==>
           StatsOf(TrackRoleSession(a, role)) == s.(patientsHelped := s.patientsHelped + 1))
      && (role == "Doctor" && role in a.roleSessions ==>
           StatsOf(TrackRoleSession(a, role)) == s.(doctorsAssisted := s.doctorsAssisted + 1))
      && (role != "Patient" && role != "Doctor" ==> StatsOf(TrackRoleSession(a, role)) == s)
  {
  }
}

=== FILE: auth.dfy ===
/** The user table and authentication: accounts keyed by a normalised e-mail
    address, salted password hashes, and the "safe" view of an account that
    every reply carries. The hash function and the fresh salt are
    parameters: `digest` stands for SHA-256 rendered as hex, `freshSalt` for
    the random token a call draws when it is given no salt. */
module Auth {
  import opened Values
  import opened Text
  import opened Seqs
  import opened Store

  type Users = seq<Record>

  /** `hash_password`: the digest of the password followed by the salt, and
      the salt used (the given one, or the freshly drawn one). */
  function HashPassword(digest: string -> string, password: string, salt: Option<string>,
                        freshSalt: string): (r: (string, string))
    ensures salt.Some? ==> r.1 == salt.value
    ensures salt.None? ==> r.1 == freshSalt
    ensures r.0 == digest(password + r.1)
  {
    var s := if salt.Some? then salt.value else freshSalt;
    (digest(password + s), s)
  }

  /** `verify_password`: rehash with the stored salt and compare. */
  predicate VerifyPassword(digest: string -> string, password: string, storedHash: string, salt: string) {
    HashPassword(digest, password, Some(salt), "").0 == storedHash
  }

  /** A hash and its salt always verify the password they were made from. */
  lemma HashThenVerify(digest: string -> string, password: string, salt: Option<string>, freshSalt: string)
    ensures var (h, s) := HashPassword(digest, password, salt, freshSalt);
            VerifyPassword(digest, password, h, s)
  {
  }

  ghost predicate Injective(digest: string -> string) {
    forall a, b :: digest(a) == digest(b) ==> a == b
  }

  /** With a collision-free digest, a password verifies against a stored hash
      exactly when it is the password the hash was made from. */
  lemma VerifyExactly(digest: string -> string, password: string, attempt: string, salt: string)
    requires Injective(digest)
    ensures VerifyPassword(digest, attempt, digest(password + salt), salt) <==> attempt == password
  {
    if VerifyPassword(digest, attempt, digest(password + salt), salt) {
      assert attempt + salt == password + salt;
      assert |attempt| == |password|;
      assert (attempt + salt)[..|attempt|] == attempt;
      assert (password + salt)[..|password|] == password;
    }
  }

  /** The keys never shown outside the user table. */
  const Secret: set<string> := {"password_hash", "salt"}

  /** The keys `update_user` refuses to change. */
  const Protected: set<string> := {"password_hash", "salt", "id"}

  /** The account without its password hash and salt. */
  function Safe(u: Record): (v: Record)
    ensures v.Keys == u.Keys - Secret
    ensures "password_hash" !in v && "salt" !in v
    ensures forall k :: k in v ==> v[k] == u[k]
  {
    map k | k in u && k !in Secret :: u[k]
  }

  /** What every operation reads of a stored account without a guard: its id,
      its e-mail (lowered, so a string), its hash and salt (concatenated and
      compared, so strings) and its role. */
  predicate UserOk(u: Record) {
    && "id" in u && "role" in u
    && "email" in u && u["email"].Str?
    && "password_hash" in u && u["password_hash"].Str?
    && "salt" in u && u["salt"].Str?
  }

  predicate WellFormed(users: Users) {
    forall i :: 0 <= i < |users| ==> UserOk(users[i])
  }

  /** `email.lower().strip()`: the form an address is looked up and stored in. */
  function Normalise(email: string): string {
    Strip(Lower(email))
  }

  /** `u['email'].lower() == e`. */
  predicate EmailIs(u: Record, e: string) {
    "email" in u && u["email"].Str? && Lower(u["email"].s) == e
  }

  function EmailPred(e: string): Record -> bool {
    u => EmailIs(u, e)
  }

  /** The position of the first account whose address matches `email`. */
  function FindEmail(users: Users, email: string): (i: nat)
    ensures i <= |users|
    ensures forall j :: 0 <= j < i ==> !EmailIs(users[j], Normalise(email))
    ensures i < |users| ==> EmailIs(users[i], Normalise(email))
  {
    FirstIndex(users, EmailPred(Normalise(email)))
  }

  /** Some account already has the address `e`. */
  predicate EmailTaken(users: Users, e: string) {
    exists i :: 0 <= i < |users| && EmailIs(users[i], e)
  }

  /** The search finds an account exactly when the address is taken. */
  lemma FindEmailTaken(users: Users, email: string)
    ensures FindEmail(users, email) < |users| <==> EmailTaken(users, Normalise(email))
  {
    var i := FindEmail(users, email);
    if i < |users| {
      assert EmailIs(users[i], Normalise(email));
    }
  }

  /** Appending a well-formed account keeps the table well-formed. */
  lemma AppendWellFormed(users: Users, u: Record)
    requires WellFormed(users) && UserOk(u)
    ensures WellFormed(users + [u])
  {
    var users' := users + [u];
    forall i | 0 <= i < |users'|
      ensures UserOk(users'[i])
    {
      if i < |users| {
        assert users'[i] == users[i];
      }
    }
  }

  /** A reply carrying a user view (or an error) and the table afterwards. */
  datatype Reply = Reply(user: Result<Record>, users: Users)

  const DuplicateEmail := "Email already registered. Please sign in instead."
  const EmailNotFound := "Email not found. Please sign up first."
  const IncorrectPassword := "Incorrect password. Please try again."
  const UserNotFound := "User not found"
  const WrongCurrentPassword := "Current password is incorrect"

  /** The fields `create_user` stores. */
  const UserKeys: set<string> := {
    "id", "name", "email", "password_hash", "salt", "role", "language", "phone",
    "created_at", "last_login"}

  /** The stored form of a new account. */
  function NewUser(id: int, name: string, email: string, hash: (string, string), role: string,
                   language: string, phone: string, createdAt: string): (u: Record)
    ensures u.Keys == UserKeys
    ensures UserOk(u) && IdIs(u, id)
    ensures u["email"] == Str(Normalise(email)) && u["name"] == Str(Strip(name))
    ensures u["role"] == Str(role) && u["last_login"] == Null
    ensures u["password_hash"] == Str(hash.0) && u["salt"] == Str(hash.1)
    ensures u["language"] == Str(language) && u["phone"] == Str(phone)
    ensures u["created_at"] == Str(createdAt)
  {
    map[
      "language" := Str(language), "phone" := Str(phone), "created_at" := Str(createdAt),
      "name" := Str(Strip(name)), "email" := Str(Normalise(email)),
      "password_hash" := Str(hash.0), "salt" := Str(hash.1), "role" := Str(role),
      "id" := Int(id), "last_login" := Null]
  }

  /** `create_user`: refuses an address some account already has (compared
      after lowering and trimming); otherwise appends an account with the
      next id, the trimmed name, the normalised address, a fresh salt and
      no login yet, and replies with its safe view. */
  function CreateUser(users: Users, name: string, email: string, password: string, role: string,
                      language: string, phone: string, digest: string -> string,
                      freshSalt: string, createdAt: string): (r: Reply)
    requires WellFormed(users)
    ensures EmailTaken(users, Normalise(email)) ==>
      r.user == Fail(DuplicateEmail) && r.users == users
    ensures !EmailTaken(users, Normalise(email)) ==>
      && |r.users| == |users| + 1 && r.users[..|users|] == users
      && var u := r.users[|users|];
      && u.Keys == UserKeys && UserOk(u)
      && IdIs(u, |users| + 1)
      && u["email"] == Str(Normalise(email))
      && u["name"] == Str(Strip(name))
      && u["role"] == Str(role)
      && u["last_login"] == Null
      && u["salt"] == Str(freshSalt)
      && u["password_hash"] == Str(digest(password + freshSalt))
      && u["language"] == Str(language) && u["phone"] == Str(phone)
      && u["created_at"] == Str(createdAt)
      && r.user == Ok(Safe(u))
    ensures r.user.Ok? ==> "password_hash" !in r.user.value && "salt" !in r.user.value
    ensures WellFormed(r.users)
  {
    var i := FindEmail(users, email);
    FindEmailTaken(users, email);
    if i < |users| then Reply(Fail(DuplicateEmail), users)
    else
      var h := HashPassword(digest, password, None, freshSalt);
      var u := NewUser(|users| + 1, name, email, h, role, language, phone, createdAt);
      var users' := users + [u];
      AppendWellFormed(users, u);
      assert users'[..|users|] == users;
      assert users'[|users|] == u;
      Reply(Ok(Safe(u)), users')
  }

  /** No two accounts share an address, compared the way lookups compare. */
  predicate UniqueEmails(users: Users) {
    forall i, j :: 0 <= i < j < |users| && "email" in users[i] && users[i]["email"].Str?
                   && "email" in users[j] && users[j]["email"].Str? ==>
      Lower(users[i]["email"].s) != Lower(users[j]["email"].s)
  }

  /** Creating an account never introduces a duplicate address. */
  lemma CreateKeepsEmailsUnique(users: Users, name: string, email: string, password: string, role: string,
                                language: string, phone: string, digest: string -> string,
                                freshSalt: string, createdAt: string)
    requires WellFormed(users) && UniqueEmails(users)
    ensures UniqueEmails(CreateUser(users, name, email, password, role, language, phone,
                                    digest, freshSalt, createdAt).users)
  {
    var r := CreateUser(users, name, email, password, role, language, phone, digest, freshSalt, createdAt);
    if r.users != users {
      NormalisedIsLowered(email);
      var u := r.users[|users|];
      assert Lower(u["email"].s) == Normalise(email);
      forall i | 0 <= i < |users|
        ensures Lower(users[i]["email"].s) != Lower(u["email"].s)
      {
        assert !EmailIs(users[i], Normalise(email));
      }
    }
  }

  /** `authenticate_user`: the first account with the address must exist and
      the password must verify against its hash; then its `last_login`
      becomes `now` and the reply is its safe view. */
  function AuthenticateUser(users: Users, email: string, password: string,
                            digest: string -> string, now: string): (r: Reply)
    requires WellFormed(users)
    ensures var i := FindEmail(users, email);
      && (i == |users| ==> r.user == Fail(EmailNotFound) && r.users == users)
      && (i < |users| && !VerifyPassword(digest, password, users[i]["password_hash"].s, users[i]["salt"].s) ==>
            r.user == Fail(IncorrectPassword) && r.users == users)
      && (i < |users| && VerifyPassword(digest, password, users[i]["password_hash"].s, users[i]["salt"].s) ==>
            var u := users[i]["last_login" := Str(now)];
            r.users == users[i := u] && r.user == Ok(Safe(u)))
    ensures r.user.Ok? ==> "password_hash" !in r.user.value && "salt" !in r.user.value
    ensures WellFormed(r.users)
  {
    var i := FindEmail(users, email);
    if i == |users| then Reply(Fail(EmailNotFound), users)
    else if !VerifyPassword(digest, password, users[i]["password_hash"].s, users[i]["salt"].s) then
      Reply(Fail(IncorrectPassword), users)
    else
      var u := users[i]["last_login" := Str(now)];
      Reply(Ok(Safe(u)), users[i := u])
  }

  /** A login touches only `last_login` of the account it found. */
  lemma AuthenticateChangesOnlyLastLogin(users: Users, email: string, password: string,
                                         digest: string -> string, now: string)
    requires WellFormed(users)
    ensures var r := AuthenticateUser(users, email, password, digest, now);
      && |r.users| == |users|
      && forall j :: 0 <= j < |users| ==>
           r.users[j].Keys - {"last_login"} == users[j].Keys - {"last_login"}
           && forall k :: k in users[j] && k != "last_login" ==> r.users[j][k] == users[j][k]
  {
  }

  /** Right after an account is created, logging in with the same address and
      password succeeds and finds that account. */
  lemma CreateThenAuthenticate(users: Users, name: string, email: string, password: string, role: string,
                               language: string, phone: string, digest: string -> string,
                               freshSalt: string, createdAt: string, now: string)
    requires WellFormed(users)
    requires forall i :: 0 <= i < |users| ==> !EmailIs(users[i], Normalise(email))
    ensures var c := CreateUser(users, name, email, password, role, language, phone,
                                digest, freshSalt, createdAt);
      var a := AuthenticateUser(c.users, email, password, digest, now);
      && a.user.Ok?
      && a.users == c.users[|users| := c.users[|users|]["last_login" := Str(now)]]
  {
    var c := CreateUser(users, name, email, password, role, language, phone, digest, freshSalt, createdAt);
    NormalisedIsLowered(email);
    var u := c.users[|users|];
    assert EmailIs(u, Normalise(email));
    assert forall i :: 0 <= i < |users| ==> c.users[i] == users[i];
    FirstIndexIs(c.users, EmailPred(Normalise(email)), |users|);
  }

  /** With a collision-free digest, a login with any other password fails. */
  lemma AuthenticateWrongPassword(users: Users, email: string, password: string,
                                  digest: string -> string, now: string, i: nat, actual: string)
    requires WellFormed(users) && Injective(digest)
    requires i == FindEmail(users, email) && i < |users|
    requires users[i]["password_hash"] == Str(digest(actual + users[i]["salt"].s))
    requires password != actual
    ensures AuthenticateUser(users, email, password, digest, now).user == Fail(IncorrectPassword)
  {
    VerifyExactly(digest, actual, password, users[i]["salt"].s);
  }

  /** `get_user_by_email`: the safe view of the first account with the
      address, if any. */
  function GetUserByEmail(users: Users, email: string): (r: Option<Record>)
    requires WellFormed(users)
    ensures r.None? <==> forall i :: 0 <= i < |users| ==> !EmailIs(users[i], Normalise(email))
    ensures r.Some? ==> "password_hash" !in r.value && "salt" !in r.value
    ensures r.Some? ==> exists i :: (0 <= i < |users| && EmailIs(users[i], Normalise(email))
      && r.value == Safe(users[i])
      && forall j :: 0 <= j < i ==> !EmailIs(users[j], Normalise(email)))
  {
    var i := FindEmail(users, email);
    if i < |users| then Some(Safe(users[i])) else None
  }

  /** `for key, value in kwargs.items(): if key not in [...]: user[key] = value`:
      every unprotected key of `kw` is written, new keys included. */
  function ApplyUpdate(u: Record, kw: Record): (u': Record)
    ensures u'.Keys == u.Keys + (kw.Keys - Protected)
    ensures forall k :: k in kw && k !in Protected ==> u'[k] == kw[k]
    ensures forall k :: k in u && (k !in kw || k in Protected) ==> u'[k] == u[k]
  {
    map k | k in u.Keys + (kw.Keys - Protected) :: if k in kw && k !in Protected then kw[k] else u[k]
  }

  /** `update_user`: the first account with the id receives every unprotected
      key of `kw`; the reply is its safe view. Without such an account the
      reply is "User not found" and nothing changes. */
  function UpdateUser(users: Users, id: int, kw: Record): (r: Reply)
    requires WellFormed(users)
    ensures var i := FirstIndex(users, IdPred(id));
      && (i == |users| ==> r.user == Fail(UserNotFound) && r.users == users)
      && (i < |users| ==> r.users == users[i := ApplyUpdate(users[i], kw)]
                          && r.user == Ok(Safe(ApplyUpdate(users[i], kw))))
    ensures r.user.Ok? ==> "password_hash" !in r.user.value && "salt" !in r.user.value
  {
    var i := FirstIndex(users, IdPred(id));
    if i == |users| then Reply(Fail(UserNotFound), users)
    else
      var u := ApplyUpdate(users[i], kw);
      Reply(Ok(Safe(u)), users[i := u])
  }

  /** An update never touches the hash, the salt or the id of any account,
      and keeps the table well-formed when it writes a string address. */
  lemma UpdateKeepsProtected(users: Users, id: int, kw: Record)
    requires WellFormed(users)
    requires "email" in kw ==> kw["email"].Str?
    ensures var r := UpdateUser(users, id, kw);
      && |r.users| == |users|
      && WellFormed(r.users)
      && forall j, k :: 0 <= j < |users| && k in Protected ==> r.users[j][k] == users[j][k]
  {
  }

  /** `change_password`: the first account with the id must exist and the
      current password must verify; then it gets a new salt and the hash of
      the new password, and nothing else changes. */
  function ChangePassword(users: Users, id: int, oldPassword: string, newPassword: string,
                          digest: string -> string, freshSalt: string): (r: (Result<()>, Users))
    requires WellFormed(users)
    ensures WellFormed(r.1) && |r.1| == |users|
    ensures var i := FirstIndex(users, IdPred(id));
      && (i == |users| ==> r == (Fail(UserNotFound), users))
      && (i < |users| && !VerifyPassword(digest, oldPassword, users[i]["password_hash"].s, users[i]["salt"].s) ==>
            r == (Fail(WrongCurrentPassword), users))
      && (i < |users| && VerifyPassword(digest, oldPassword, users[i]["password_hash"].s, users[i]["salt"].s) ==>
            && r.0 == Ok(())
            && |r.1| == |users|
            && (forall j :: 0 <= j < |users| && j != i ==> r.1[j] == users[j])
            && r.1[i].Keys == users[i].Keys
            && (forall k :: k in users[i] && k !in Secret ==> r.1[i][k] == users[i][k])
            && r.1[i]["salt"] == Str(freshSalt)
            && VerifyPassword(digest, newPassword, r.1[i]["password_hash"].s, r.1[i]["salt"].s))
    ensures WellFormed(r.1)
  {
    var i := FirstIndex(users, IdPred(id));
    if i == |users| then (Fail(UserNotFound), users)
    else if !VerifyPassword(digest, oldPassword, users[i]["password_hash"].s, users[i]["salt"].s) then
      (Fail(WrongCurrentPassword), users)
    else
      var (h, s) := HashPassword(digest, newPassword, None, freshSalt);
      var u := users[i]["password_hash" := Str(h)]["salt" := Str(s)];
      (Ok(()), users[i := u])
  }

  /** With a collision-free digest, after a change only the new password
      verifies for that account. */
  lemma ChangeThenVerify(users: Users, id: int, oldPassword: string, newPassword: string,
                         digest: string -> string, freshSalt: string, attempt: string)
    requires WellFormed(users) && Injective(digest)
    requires ChangePassword(users, id, oldPassword, newPassword, digest, freshSalt).0.Ok?
    ensures var i := FirstIndex(users, IdPred(id));
      var u := ChangePassword(users, id, oldPassword, newPassword, digest, freshSalt).1[i];
      VerifyPassword(digest, attempt, u["password_hash"].s, u["salt"].s) <==> attempt == newPassword
  {
    VerifyExactly(digest, newPassword, attempt, freshSalt);
  }

  /** `user['role'] == role`. */
  function RolePred(role: string): Record -> bool {
    u => "role" in u && u["role"] == Str(role)
  }

  /** `get_all_users_by_role`: the safe views of exactly the accounts with the
      role, in table order. */
  function GetAllUsersByRole(users: Users, role: string): (r: seq<Record>)
    requires WellFormed(users)
    ensures |r| == Count(users, RolePred(role))
    ensures forall j :: 0 <= j < |r| ==> "password_hash" !in r[j] && "salt" !in r[j]
    ensures var idx := MatchIndices(users, RolePred(role));
      && |idx| == |r| && Increasing(idx)
      && (forall j :: 0 <= j < |r| ==> idx[j] < |users| && r[j] == Safe(users[idx[j]]))
      && (forall i :: 0 <= i < |users| ==> (RolePred(role)(users[i]) <==> i in idx))
  {
    var f := Filter(users, RolePred(role));
    FilterSelectsInOrder(users, RolePred(role));
    seq(|f|, j requires 0 <= j < |f| => Safe(f[j]))
  }
}

=== FILE: gateway.dfy ===
/** The AI gateway: each public function builds a request, sends it through
    the retry wrapper, and turns any exception that escapes into a reply of
    a fixed shape, so no caller ever sees an exception. The model provider
    is a parameter `ask`: `ask(req, k)` is what the provider does with
    request `req` on the `k`-th call, either the response text or an
    exception. `json.loads` and reading the audio file are parameters too. */
module Gateway {
  import opened Values
  import opened Retry

  const ModelFast := "gemini-1.5-flash"
  const ModelPro := "gemini-1.5-pro"

  newtype byte = x: int | 0 <= x < 256

  /** What is sent to the provider: a text prompt, or an audio clip with an
      instruction. */
  datatype Request =
    | Prompt(model: string, text: string)
    | Clip(model: string, mimeType: string, data: seq<byte>, instruction: string)

  type Provider = (Request, nat) -> Outcome<string>

  /** `{"success": True, key: text}`. */
  function Success(key: string, text: string): Record {
    map["success" := Bool(true), key := Str(text)]
  }

  /** `{"success": False, key: None, "error": str(e)}`. */
  function Failure(key: string, error: string): Record {
    map["success" := Bool(false), key := Null, "error" := Str(error)]
  }

  /** `try: return with_retry(_run) except Exception as e: return onFail(e)`:
      the first value an attempt returns, or the failure reply built from the
      third exception. */
  function Guarded(attempt: nat -> Outcome<Record>, onFail: string -> Record): (r: Record)
    ensures !AllFail(attempt) ==> r == attempt(FirstSuccess(attempt, 0)).value
    ensures AllFail(attempt) ==> r == onFail(attempt(MaxRetries - 1).error)
  {
    WithRetrySucceeds(attempt);
    match WithRetry(attempt).result
    case Returned(v) => v
    case Raised(e) => onFail(e)
  }

  /** One attempt of a plain text call: the response text under `key`. */
  function TextAttempt(ask: Provider, req: Request, key: string): nat -> Outcome<Record> {
    (k: nat) => match ask(req, k)
         case Returned(text) => Returned(Success(key, text))
         case Raised(e) => Raised(e)
  }

  /** The reply of a plain text call: the first response the provider gives
      within three calls, or the failure shape with the third error. */
  function TextCall(ask: Provider, req: Request, key: string): (r: Record)
    ensures (forall k :: 0 <= k < MaxRetries ==> ask(req, k).Raised?) ==>
      r == Failure(key, ask(req, MaxRetries - 1).error)
    ensures !(forall k :: 0 <= k < MaxRetries ==> ask(req, k).Raised?) ==>
      exists k :: 0 <= k < MaxRetries && ask(req, k).Returned?
        && (forall j :: 0 <= j < k ==> ask(req, j).Raised?)
        && r == Success(key, ask(req, k).value)
  {
    TextAttemptFacts(ask, req, key);
    Guarded(TextAttempt(ask, req, key), e => Failure(key, e))
  }

  /** An attempt of a text call fails exactly when the provider raises. */
  lemma TextAttemptFacts(ask: Provider, req: Request, key: string)
    ensures var f := TextAttempt(ask, req, key);
      && (AllFail(f) <==> forall k :: 0 <= k < MaxRetries ==> ask(req, k).Raised?)
      && (AllFail(f) ==> f(MaxRetries - 1).error == ask(req, MaxRetries - 1).error)
      && (!AllFail(f) ==>
            var k := FirstSuccess(f, 0);
            && k < MaxRetries && ask(req, k).Returned?
            && (forall j :: 0 <= j < k ==> ask(req, j).Raised?)
            && f(k).value == Success(key, ask(req, k).value))
  {
    var f := TextAttempt(ask, req, key);
    assert forall k :: f(k).Raised? <==> ask(req, k).Raised?;
  }

  /** Every reply of a plain text call has the same three fields on failure
      and two on success, and `success` tells which. */
  lemma TextCallShape(ask: Provider, req: Request, key: string)
    requires key != "success" && key != "error"
    ensures var r := TextCall(ask, req, key);
      && "success" in r && r["success"].Bool? && key in r
      && (r["success"] == Bool(false) <==> r.Keys == {"success", key, "error"} && r[key] == Null)
      && (r["success"] == Bool(true) <==> r.Keys == {"success", key} && r[key].Str?)
  {
  }

  /** The pieces of a prompt, written one after another. */
  function Concat(pieces: seq<string>): string
    decreases |pieces|
  {
    if pieces == [] then "" else pieces[0] + Concat(pieces[1..])
  }

  function TranslatePrompt(text: string, source: string, target: string): string {
    Concat([
      "You are a professional medical translator.\n", "Translate the following text from ",
      source, " to ", target, ".\n", "Keep medical terms accurate.\n\n", text])
  }

  /** `translate_text`: the fast model, the translation under `translation`. */
  function TranslateText(ask: Provider, text: string, source: string, target: string): (r: Record)
    ensures var req := Prompt(ModelFast, TranslatePrompt(text, source, target));
      && ((forall k :: 0 <= k < MaxRetries ==> ask(req, k).Raised?) ==>
            r == Failure("translation", ask(req, MaxRetries - 1).error))
      && (!(forall k :: 0 <= k < MaxRetries ==> ask(req, k).Raised?) ==>
            exists k :: 0 <= k < MaxRetries && ask(req, k).Returned?
              && r == Success("translation", ask(req, k).value))
  {
    TextCall(ask, Prompt(ModelFast, TranslatePrompt(text, source, target)), "translation")
  }

  /** `generate_prescription_translation`: a translation from the doctor's
      language into the patient's. */
  function PrescriptionTranslation(ask: Provider, text: string, doctorLanguage: string,
                                   patientLanguage: string): (r: Record)
    ensures var req := Prompt(ModelFast, TranslatePrompt(text, doctorLanguage, patientLanguage));
      && ((forall k :: 0 <= k < MaxRetries ==> ask(req, k).Raised?) ==>
            r == Failure("translation", ask(req, MaxRetries - 1).error))
      && (!(forall k :: 0 <= k < MaxRetries ==> ask(req, k).Raised?) ==>
            exists k :: 0 <= k < MaxRetries && ask(req, k).Returned?
              && r == Success("translation", ask(req, k).value))
  {
    TranslateText(ask, text, doctorLanguage, patientLanguage)
  }

  /** `f"...{x}..." if x else ""` for an optional piece of text. */
  function IfGiven(x: Option<string>, before: string, after: string): string {
    if x.Some? && x.value != "" then before + x.value + after else ""
  }

  function ChatPrompt(message: string, language: string, role: string,
                      context: Option<string>, severity: Option<string>): string {
    Concat([
      "You are a medical AI assistant.\n", "User Role: ", role, "\n", "Language: ", language, "\n",
      IfGiven(context, "\nPatient Context:\n", "\n"), IfGiven(severity, "\nSeverity: ", "\n"), "\n",
      "User Message:\n", message, "\n\n", "Respond clearly, safely, and responsibly."])
  }

  /** `medical_chat_response`: the fast model, the answer under `response`. */
  function MedicalChat(ask: Provider, message: string, language: string, role: string,
                       context: Option<string>, severity: Option<string>): (r: Record)
    ensures var req := Prompt(ModelFast, ChatPrompt(message, language, role, context, severity));
      && ((forall k :: 0 <= k < MaxRetries ==> ask(req, k).Raised?) ==>
            r == Failure("response", ask(req, MaxRetries - 1).error))
      && (!(forall k :: 0 <= k < MaxRetries ==> ask(req, k).Raised?) ==>
            exists k :: 0 <= k < MaxRetries && ask(req, k).Returned?
              && r == Success("response", ask(req, k).value))
  {
    TextCall(ask, Prompt(ModelFast, ChatPrompt(message, language, role, context, severity)), "response")
  }

  const TranscribeInstruction := "Transcribe this audio accurately."

  /** One attempt of `transcribe_audio`: the file is read inside the attempt,
      so a failed read is retried like a failed call. */
  function TranscribeAttempt(ask: Provider, readAudio: nat -> Outcome<seq<byte>>): nat -> Outcome<Record> {
    (k: nat) => match readAudio(k)
         case Raised(e) => Raised(e)
         case Returned(data) =>
           match ask(Clip(ModelFast, "audio/wav", data, TranscribeInstruction), k)
           case Returned(text) => Returned(Success("transcription", text))
           case Raised(e) => Raised(e)
  }

  /** `transcribe_audio`: the transcript under `transcription`, or the failure
      shape with the third error (of the read or of the call). */
  function TranscribeAudio(ask: Provider, readAudio: nat -> Outcome<seq<byte>>): (r: Record)
    ensures var f := TranscribeAttempt(ask, readAudio);
      && (AllFail(f) ==> r == Failure("transcription", f(MaxRetries - 1).error))
      && (!AllFail(f) ==> exists text :: r == Success("transcription", text))
  {
    TranscribeAttemptFacts(ask, readAudio);
    Guarded(TranscribeAttempt(ask, readAudio), e => Failure("transcription", e))
  }

  /** A successful transcription attempt carries the provider's text. */
  lemma TranscribeAttemptFacts(ask: Provider, readAudio: nat -> Outcome<seq<byte>>)
    ensures var f := TranscribeAttempt(ask, readAudio);
      !AllFail(f) ==> exists text :: f(FirstSuccess(f, 0)).value == Success("transcription", text)
  {
    var f := TranscribeAttempt(ask, readAudio);
    if !AllFail(f) {
      var k := FirstSuccess(f, 0);
      var data := readAudio(k).value;
      var text := ask(Clip(ModelFast, "audio/wav", data, TranscribeInstruction), k).value;
      assert f(k).value == Success("transcription", text);
    }
  }

  /** The role `analyze_symptoms` assumes when its caller names none. */
  const DefaultRole := "Patient"

  /** `analyze_symptoms` picks the stronger model for doctors only. */
  function SymptomModel(role: string): (m: string)
    ensures m == ModelPro <==> role == "Doctor"
    ensures m == ModelFast <==> role != "Doctor"
  {
    if role == "Doctor" then ModelPro else ModelFast
  }

  /** The fixed tail of the analysis prompt: the answer format asked for. */
  const AnalyzeFormat: seq<string> := [
    "Respond ONLY in valid JSON with:\n", "- symptoms_summary\n", "- possible_conditions (list)\n",
    "- severity_level (Low/Medium/High/Critical)\n", "- recommendations (list)\n",
    "- urgent_care_needed (true/false)\n", "- follow_up_questions (list)\n", "- disclaimer"]

  function AnalyzePrompt(symptoms: string, language: string, context: Option<string>): string {
    Concat([
      "You are an AI medical assistant.\n", "Language: ", language, "\n",
      IfGiven(context, "\nPatient Context:\n", "\n"), "\n",
      "Symptoms:\n", symptoms, "\n\n"] + AnalyzeFormat)
  }

  /** `data["success"] = True` on whatever `json.loads` produced: a dict gains
      the key, anything else raises Python's `TypeError`. */
  function MarkSuccess(data: Json): (r: Outcome<Record>)
    ensures data.Obj? <==> r.Returned?
    ensures data.Obj? ==> (
      && r.value.Keys == data.fields.Keys + {"success"}
      && r.value["success"] == Bool(true)
      && forall k :: k in data.fields && k != "success" ==> r.value[k] == data.fields[k])
  {
    match data
    case Obj(m) => Returned(m["success" := Bool(true)])
    case Arr(_) => Raised("list indices must be integers or slices, not str")
    case Str(_) => Raised("'str' object does not support item assignment")
    case Int(_) => Raised("'int' object does not support item assignment")
    case Bool(_) => Raised("'bool' object does not support item assignment")
    case Null => Raised("'NoneType' object does not support item assignment")
  }

  /** One attempt of `analyze_symptoms`: ask, parse, mark. A reply that does
      not parse, or parses to something other than an object, fails the
      attempt and is retried. */
  function AnalyzeAttempt(ask: Provider, parse: string -> Outcome<Json>, req: Request): nat -> Outcome<Record> {
    (k: nat) => match ask(req, k)
         case Raised(e) => Raised(e)
         case Returned(text) =>
           match parse(text)
           case Raised(e) => Raised(e)
           case Returned(data) => MarkSuccess(data)
  }

  /** The reply `analyze_symptoms` gives when every attempt failed. */
  function AnalysisFallback(error: string): Record {
    map[
      "symptoms_summary" := Str("Unable to analyze symptoms"),
      "possible_conditions" := Arr([]), "severity_level" := Str("Unknown"),
      "recommendations" := Arr([]), "urgent_care_needed" := Bool(false),
      "follow_up_questions" := Arr([]), "disclaimer" := Str("This is not medical advice."),
      "error" := Str(error), "success" := Bool(false)]
  }

  function AnalyzeRequest(symptoms: string, language: string, context: Option<string>, role: string): Request {
    Prompt(SymptomModel(role), AnalyzePrompt(symptoms, language, context))
  }

  /** The object the `k`-th analysis call parses to, when it does. */
  predicate ParsesToObject(ask: Provider, parse: string -> Outcome<Json>, req: Request, k: nat) {
    ask(req, k).Returned? && parse(ask(req, k).value).Returned? && parse(ask(req, k).value).value.Obj?
  }

  /** The guarded analysis call for a given request. */
  function Analysis(ask: Provider, parse: string -> Outcome<Json>, req: Request): (r: Record)
    ensures var f := AnalyzeAttempt(ask, parse, req);
      && (AllFail(f) ==> r == AnalysisFallback(f(MaxRetries - 1).error))
      && (!AllFail(f) ==>
            var k := FirstSuccess(f, 0);
            && k < MaxRetries && ParsesToObject(ask, parse, req, k)
            && (forall j :: 0 <= j < k ==> !ParsesToObject(ask, parse, req, j))
            && r == parse(ask(req, k).value).value.fields["success" := Bool(true)])
    ensures "success" in r && (r["success"] == Bool(true) <==> !AllFail(AnalyzeAttempt(ask, parse, req)))
  {
    AnalyzeAttemptFacts(ask, parse, req);
    Guarded(AnalyzeAttempt(ask, parse, req), AnalysisFallback)
  }

  /** `analyze_symptoms`: the object parsed from the first reply that parses
      to one, with `success` set to true; when none arrives in three calls,
      the fixed fallback carrying the third error. */
  function AnalyzeSymptoms(ask: Provider, parse: string -> Outcome<Json>, symptoms: string,
                           language: string, context: Option<string>, role: string): (r: Record)
    ensures var req := AnalyzeRequest(symptoms, language, context, role);
      var f := AnalyzeAttempt(ask, parse, req);
      && (AllFail(f) ==> r == AnalysisFallback(f(MaxRetries - 1).error))
      && (!AllFail(f) ==>
            var k := FirstSuccess(f, 0);
            && k < MaxRetries && ParsesToObject(ask, parse, req, k)
            && (forall j :: 0 <= j < k ==> !ParsesToObject(ask, parse, req, j))
            && r == parse(ask(req, k).value).value.fields["success" := Bool(true)])
    ensures "success" in r
    ensures r["success"] == Bool(true) <==> !AllFail(AnalyzeAttempt(ask, parse, AnalyzeRequest(symptoms, language, context, role)))
  {
    Analysis(ask, parse, AnalyzeRequest(symptoms, language, context, role))
  }

  /** An analysis attempt succeeds exactly when the reply parses to an
      object, and then yields that object marked successful. */
  lemma AnalyzeAttemptFacts(ask: Provider, parse: string -> Outcome<Json>, req: Request)
    ensures var f := AnalyzeAttempt(ask, parse, req);
      forall k: nat :: (f(k).Returned? <==> ParsesToObject(ask, parse, req, k))
        && (f(k).Returned? ==> f(k).value == parse(ask(req, k).value).value.fields["success" := Bool(true)])
  {
  }

  /** The fallback is exactly what the failure branch promises: no success,
      an "Unknown" severity, empty lists and no urgent care. */
  lemma FallbackShape(error: string)
    ensures var r := AnalysisFallback(error);
      && r["success"] == Bool(false) && r["severity_level"] == Str("Unknown")
      && r["possible_conditions"] == Arr([]) && r["recommendations"] == Arr([])
      && r["follow_up_questions"] == Arr([]) && r["urgent_care_needed"] == Bool(false)
      && r["error"] == Str(error)
  {
  }

  /** `analyze_symptoms` consults only the model its role selects: two
      providers that answer that model alike give the same reply. */
  lemma AnalyzeUsesSelectedModel(ask1: Provider, ask2: Provider, parse: string -> Outcome<Json>,
                                 symptoms: string, language: string, context: Option<string>, role: string)
    requires forall p: string, k: nat :: ask1(Prompt(SymptomModel(role), p), k) == ask2(Prompt(SymptomModel(role), p), k)
    ensures AnalyzeSymptoms(ask1, parse, symptoms, language, context, role)
         == AnalyzeSymptoms(ask2, parse, symptoms, language, context, role)
  {
    var req := AnalyzeRequest(symptoms, language, context, role);
    var f1, f2 := AnalyzeAttempt(ask1, parse, req), AnalyzeAttempt(ask2, parse, req);
    assert forall k: nat :: ask1(req, k) == ask2(req, k);
    assert forall k: nat :: f1(k) == f2(k);
    WithRetryCongruent(f1, f2);
  }

  /** A call that leaves `user_role` at its default asks the fast model: the
      analysis then depends only on what the provider answers to fast-model
      prompts. */
  lemma DefaultRoleUsesFastModel(ask1: Provider, ask2: Provider, parse: string -> Outcome<Json>,
                                 symptoms: string, language: string, context: Option<string>)
    requires forall p: string, k: nat :: ask1(Prompt(ModelFast, p), k) == ask2(Prompt(ModelFast, p), k)
    ensures AnalyzeRequest(symptoms, language, context, DefaultRole).model == ModelFast
    ensures AnalyzeSymptoms(ask1, parse, symptoms, language, context, DefaultRole)
         == AnalyzeSymptoms(ask2, parse, symptoms, language, context, DefaultRole)
  {
    AnalyzeUsesSelectedModel(ask1, ask2, parse, symptoms, language, context, DefaultRole);
  }

  function HospitalPrompt(city: string, specialty: Option<string>): string {
    Concat([
      "List 5 hospitals", IfGiven(specialty, " specializing in ", ""), " near ", city, ", India.\n",
      "Return valid JSON array with name, address, phone, specialties."])
  }

  /** One attempt of `find_nearby_hospitals`: ask and parse; whatever JSON
      value parses is accepted. */
  function HospitalAttempt(ask: Provider, parse: string -> Outcome<Json>, req: Request): nat -> Outcome<Record> {
    (k: nat) => match ask(req, k)
         case Raised(e) => Raised(e)
         case Returned(text) =>
           match parse(text)
           case Raised(e) => Raised(e)
           case Returned(data) => Returned(map["success" := Bool(true), "hospitals" := data])
  }

  /** `{"success": False, "hospitals": [], "error": str(e)}`. */
  function HospitalFailure(error: string): Record {
    map["success" := Bool(false), "hospitals" := Arr([]), "error" := Str(error)]
  }

  /** `find_nearby_hospitals`: the fast model; the value parsed from the
      first reply that parses under `hospitals`, or an empty list and the
      third error. */
  function FindNearbyHospitals(ask: Provider, parse: string -> Outcome<Json>, city: string,
                               specialty: Option<string>): (r: Record)
    ensures var req := Prompt(ModelFast, HospitalPrompt(city, specialty));
      var f := HospitalAttempt(ask, parse, req);
      && (AllFail(f) ==> r == HospitalFailure(f(MaxRetries - 1).error))
      && (!AllFail(f) ==>
            var k := FirstSuccess(f, 0);
            && k < MaxRetries && ask(req, k).Returned? && parse(ask(req, k).value).Returned?
            && r == map["success" := Bool(true), "hospitals" := parse(ask(req, k).value).value])
    ensures "hospitals" in r && ("error" in r <==> r["success"] == Bool(false))
  {
    HospitalAttemptFacts(ask, parse, Prompt(ModelFast, HospitalPrompt(city, specialty)));
    Guarded(HospitalAttempt(ask, parse, Prompt(ModelFast, HospitalPrompt(city, specialty))), HospitalFailure)
  }

  /** A hospital attempt succeeds exactly when the reply parses, and then
      carries the parsed value. */
  lemma HospitalAttemptFacts(ask: Provider, parse: string -> Outcome<Json>, req: Request)
    ensures var f := HospitalAttempt(ask, parse, req);
      forall k: nat :: (f(k).Returned? <==> ask(req, k).Returned? && parse(ask(req, k).value).Returned?)
        && (f(k).Returned? ==>
              f(k).value == map["success" := Bool(true), "hospitals" := parse(ask(req, k).value).value])
  {
  }
}

=== FILE: profiles.dfy ===
/** The per-user tables of the record store: saved hospitals (inserted at most
    once per user and hospital name) and health profiles (one per user,
    saved by upsert), and the plain-text summary of a profile that the AI
    prompts carry. */
module Profiles {
  import opened Values
  import opened Text
  import opened Seqs
  import opened Store
  import opened Records

  datatype SavedHospital = SavedHospital(
    userId: Json, hospitalName: string, address: string, phone: string,
    specialties: Json, city: string, distanceKm: Json)

  /** A row of `t` already pairs this user with this hospital name. */
  predicate AlreadySaved(t: Table, uid: Json, name: string) {
    exists i :: 0 <= i < |t| && Get(t[i], "user_id") == uid && Get(t[i], "hospital_name") == Str(name)
  }

  /** The fields a saved-hospital row is built with, before its id. */
  const SavedHospitalFields: set<string> := {
    "user_id", "hospital_name", "address", "phone", "specialties", "city", "distance_km", "saved_at"}

  function SavedHospitalRow(h: SavedHospital, savedAt: string): (r: Record)
    ensures r.Keys == SavedHospitalFields
    ensures r["user_id"] == h.userId && r["hospital_name"] == Str(h.hospitalName)
    ensures r["address"] == Str(h.address) && r["phone"] == Str(h.phone)
    ensures r["specialties"] == h.specialties && r["city"] == Str(h.city)
    ensures r["distance_km"] == h.distanceKm && r["saved_at"] == Str(savedAt)
  {
    map[
      "user_id" := h.userId, "hospital_name" := Str(h.hospitalName),
      "address" := Str(h.address), "phone" := Str(h.phone),
      "specialties" := h.specialties, "city" := Str(h.city),
      "distance_km" := h.distanceKm, "saved_at" := Str(savedAt)]
  }

  /** The reply of an insert and the table after it. */
  datatype Saved = Saved(reply: Result<Record>, table: Table)

  const AlreadySavedError := "Hospital already saved"

  /** `add_saved_hospital`: refuses a (user, hospital name) pair that is already
      stored and leaves the table alone; otherwise appends one row with the
      next id. */
  function AddSavedHospital(t: Table, h: SavedHospital, savedAt: string): (r: Saved)
    ensures AlreadySaved(t, h.userId, h.hospitalName) ==>
      r.reply == Fail(AlreadySavedError) && r.table == t
    ensures !AlreadySaved(t, h.userId, h.hospitalName) ==>
      && r.reply.Ok? && r.table == t + [r.reply.value]
      && IdIs(r.reply.value, |t| + 1)
      && Get(r.reply.value, "user_id") == h.userId
      && Get(r.reply.value, "hospital_name") == Str(h.hospitalName)
      && r.reply.value.Keys == SavedHospitalFields + {"id"}
      && r.reply.value["address"] == Str(h.address) && r.reply.value["phone"] == Str(h.phone)
      && r.reply.value["specialties"] == h.specialties && r.reply.value["city"] == Str(h.city)
      && r.reply.value["distance_km"] == h.distanceKm && r.reply.value["saved_at"] == Str(savedAt)
    ensures AlreadySaved(r.table, h.userId, h.hospitalName)
  {
    if exists i :: 0 <= i < |t| && Get(t[i], "user_id") == h.userId
                   && Get(t[i], "hospital_name") == Str(h.hospitalName) then
      Saved(Fail(AlreadySavedError), t)
    else
      var a := Add(t, SavedHospitalRow(h, savedAt));
      assert a.table[|t|] == a.row;
      Saved(Ok(a.row), a.table)
  }

  /** No user has the same hospital name saved twice. */
  predicate NoDuplicatePairs(t: Table) {
    forall i, j :: 0 <= i < j < |t| ==>
      !(Get(t[i], "user_id") == Get(t[j], "user_id")
        && Get(t[i], "hospital_name") == Get(t[j], "hospital_name"))
  }

  /** Saving a hospital never creates a duplicate pair. */
  lemma AddSavedHospitalKeepsUnique(t: Table, h: SavedHospital, savedAt: string)
    requires NoDuplicatePairs(t)
    ensures NoDuplicatePairs(AddSavedHospital(t, h, savedAt).table)
  {
    var r := AddSavedHospital(t, h, savedAt);
    if !AlreadySaved(t, h.userId, h.hospitalName) {
      var row := r.reply.value;
      forall i | 0 <= i < |t|
        ensures !(Get(t[i], "user_id") == Get(row, "user_id")
                  && Get(t[i], "hospital_name") == Get(row, "hospital_name"))
      {
      }
    }
  }

  /** Saving the same hospital for the same user a second time is refused and
      changes nothing. */
  lemma SaveHospitalTwice(t: Table, h: SavedHospital, savedAt: string, later: string)
    ensures var first := AddSavedHospital(t, h, savedAt);
            var second := AddSavedHospital(first.table, h, later);
            second.reply == Fail(AlreadySavedError) && second.table == first.table
  {
  }

  /** The profile fields `save_health_profile` copies from `profile_data`, each
      with the default `.get` falls back to. */
  const ProfileDefaults: map<string, Json> := map[
    "blood_type" := Str(""), "height" := Int(0), "weight" := Int(0),
    "date_of_birth" := Str(""), "gender" := Str(""), "allergies" := Str(""),
    "chronic_conditions" := Str(""), "current_medications" := Str(""),
    "emergency_contact_name" := Str(""), "emergency_contact_phone" := Str(""),
    "primary_doctor" := Str(""), "smoking_status" := Str(""),
    "alcohol_status" := Str(""), "exercise_frequency" := Str("")]

  /** The keys of a stored profile. */
  const ProfileKeys: set<string> := ProfileDefaults.Keys + {"id", "user_id", "updated_at"}

  /** The three keys the upsert adds are not profile fields. */
  lemma MetaKeysApart()
    ensures "id" !in ProfileDefaults && "user_id" !in ProfileDefaults
    ensures "updated_at" !in ProfileDefaults
  {
  }

  function ProfileRow(id: Json, uid: Json, data: Record, updatedAt: string): (p: Record)
    ensures p.Keys == ProfileKeys
    ensures p["id"] == id && p["user_id"] == uid && p["updated_at"] == Str(updatedAt)
    ensures forall k :: k in ProfileDefaults ==> p[k] == GetOr(data, k, ProfileDefaults[k])
  {
    MetaKeysApart();
    var fields := map k | k in ProfileDefaults :: GetOr(data, k, ProfileDefaults[k]);
    map["id" := id, "user_id" := uid, "updated_at" := Str(updatedAt)] + fields
  }

  /** The saved profile and the table after the upsert. */
  datatype Upserted = Upserted(profile: Record, table: Table)

  /** The row `save_health_profile` would update, if any, has an id: the one
      key of a stored row the upsert reads. */
  predicate UpdatedRowHasId(t: Table, uid: Json) {
    var i := FirstIndex(t, UserPred(uid));
    i < |t| ==> "id" in t[i]
  }

  /** `save_health_profile`: the first profile of the user is replaced in place,
      keeping its id; a user without one gets a new profile appended with the
      next id. The profile's fields come from `profile_data`, defaulted. */
  function SaveHealthProfile(t: Table, uid: Json, data: Record, updatedAt: string): (r: Upserted)
    requires UpdatedRowHasId(t, uid)
    ensures r.profile.Keys == ProfileKeys
    ensures var i := FirstIndex(t, UserPred(uid));
      && (i < |t| ==> r.table == t[i := r.profile] && r.profile["id"] == t[i]["id"])
      && (i == |t| ==> r.table == t + [r.profile] && IdIs(r.profile, |t| + 1))
    ensures r.profile["user_id"] == uid && r.profile["updated_at"] == Str(updatedAt)
    ensures forall k :: k in ProfileDefaults ==> r.profile[k] == GetOr(data, k, ProfileDefaults[k])
  {
    var i := FirstIndex(t, UserPred(uid));
    if i < |t| then
      var p := ProfileRow(t[i]["id"], uid, data, updatedAt);
      Upserted(p, t[i := p])
    else
      var p := ProfileRow(Int(|t| + 1), uid, data, updatedAt);
      Upserted(p, t + [p])
  }

  /** The number of profiles stored for `uid`. */
  function ProfilesOf(t: Table, uid: Json): nat {
    Count(t, UserPred(uid))
  }

  /** An upsert never adds a second profile for a user: the count stays what
      it was, or becomes one when the user had none. */
  lemma SaveHealthProfileCount(t: Table, uid: Json, data: Record, updatedAt: string)
    requires UpdatedRowHasId(t, uid)
    ensures var t' := SaveHealthProfile(t, uid, data, updatedAt).table;
            ProfilesOf(t', uid) == if ProfilesOf(t, uid) == 0 then 1 else ProfilesOf(t, uid)
    ensures ProfilesOf(t, uid) <= 1 ==> ProfilesOf(SaveHealthProfile(t, uid, data, updatedAt).table, uid) == 1
  {
    var r := SaveHealthProfile(t, uid, data, updatedAt);
    var p := UserPred(uid);
    var i := FirstIndex(t, p);
    if i < |t| {
      CountReplace(t, i, r.profile, p);
      FilterSelectsInOrder(t, p);
      assert i in MatchIndices(t, p);
    } else {
      FilterNone(t, p);
      FilterSnoc(t, r.profile, p);
    }
  }

  /** `get_health_profile`: the first profile stored for the user, if any. */
  function GetHealthProfile(t: Table, uid: Json): (r: Option<Record>)
    ensures r.None? <==> forall i :: 0 <= i < |t| ==> Get(t[i], "user_id") != uid
    ensures r.Some? ==> exists i :: (0 <= i < |t| && t[i] == r.value
      && Get(r.value, "user_id") == uid
      && forall j :: 0 <= j < i ==> Get(t[j], "user_id") != uid)
  {
    var i := FirstIndex(t, UserPred(uid));
    if i < |t| then Some(t[i]) else None
  }

  /** What was saved is what is read back, for that user... */
  lemma SaveThenGetProfile(t: Table, uid: Json, data: Record, updatedAt: string)
    requires UpdatedRowHasId(t, uid)
    ensures var r := SaveHealthProfile(t, uid, data, updatedAt);
            GetHealthProfile(r.table, uid) == Some(r.profile)
  {
    var r := SaveHealthProfile(t, uid, data, updatedAt);
    var p := UserPred(uid);
    var i := FirstIndex(t, p);
    if i < |t| {
      FirstIndexReplaced(t, i, r.profile, p);
    } else {
      FirstIndexAppended(t, r.profile, p);
    }
  }

  /** ...and every other user's profile reads back as before. */
  lemma SaveKeepsOtherProfiles(t: Table, uid: Json, other: Json, data: Record, updatedAt: string)
    requires UpdatedRowHasId(t, uid) && other != uid
    ensures GetHealthProfile(SaveHealthProfile(t, uid, data, updatedAt).table, other)
         == GetHealthProfile(t, other)
  {
    var r := SaveHealthProfile(t, uid, data, updatedAt);
    var t' := r.table;
    var q := UserPred(other);
    var i := FirstIndex(t, UserPred(uid));
    if i < |t| {
      FirstIndexAgree(t, t', i, q);
    } else {
      FirstIndexAppended(t, r.profile, q);
    }
  }

  /** The kinds of line in the profile summary: a labelled single field, or
      the combined height-and-weight line. */
  datatype LineSpec = Field(caption: string, key: string) | Size

  const BloodTypeLabel := "Blood Type: "
  const GenderLabel := "Gender: "
  const AllergiesLabel := "ALLERGIES: "
  const ChronicLabel := "CHRONIC CONDITIONS: "
  const MedicationsLabel := "CURRENT MEDICATIONS: "
  const SmokingLabel := "Smoking: "
  const AlcoholLabel := "Alcohol: "

  /** The summary's lines in output order. */
  const ContextLines: seq<LineSpec> := [
    Field(BloodTypeLabel, "blood_type"), Field(GenderLabel, "gender"), Size,
    Field(AllergiesLabel, "allergies"), Field(ChronicLabel, "chronic_conditions"),
    Field(MedicationsLabel, "current_medications"), Field(SmokingLabel, "smoking_status"),
    Field(AlcoholLabel, "alcohol_status")]

  /** A line is written when its field is truthy; the size line needs both
      height and weight. */
  predicate Holds(p: Record, l: LineSpec) {
    match l
    case Field(_, k) => Truthy(Get(p, k))
    case Size => Truthy(Get(p, "height")) && Truthy(Get(p, "weight"))
  }

  /** The text of a line. */
  function Render(p: Record, l: LineSpec): string {
    match l
    case Field(c, k) => c + Show(Get(p, k))
    case Size => "Height: " + Show(Get(p, "height")) + "cm, Weight: " + Show(Get(p, "weight")) + "kg"
  }

  /** `Holds` for one profile, as a selection predicate. */
  function HoldsIn(p: Record): LineSpec -> bool {
    l => Holds(p, l)
  }

  /** The rendered lines of `specs` that hold, in order: the `k`-th part is
      the rendering of the `k`-th spec that holds. */
  function Lines(p: Record, specs: seq<LineSpec>): (parts: seq<string>)
    ensures |parts| <= |specs|
    ensures RendersSelected(p, specs, parts)
    decreases |specs|
  {
    if specs == [] then []
    else
      var head := if Holds(p, specs[0]) then [Render(p, specs[0])] else [];
      var rest := Lines(p, specs[1..]);
      RenderedStep(p, specs, rest);
      head + rest
  }

  /** `parts` lists, in order, the renderings of the specs that hold: the
      `k`-th part renders the `k`-th spec selected by `Holds`. */
  ghost predicate RendersSelected(p: Record, specs: seq<LineSpec>, parts: seq<string>) {
    var sel := Filter(specs, HoldsIn(p));
    |parts| == |sel| && forall k :: 0 <= k < |sel| ==> parts[k] == Render(p, sel[k])
  }

  /** One step of the induction behind `Lines`: the first spec's line, when it
      holds, goes in front of the lines of the rest. */
  lemma RenderedStep(p: Record, specs: seq<LineSpec>, rest: seq<string>)
    requires specs != [] && RendersSelected(p, specs[1..], rest)
    ensures RendersSelected(p, specs, (if Holds(p, specs[0]) then [Render(p, specs[0])] else []) + rest)
  {
    FilterFront(specs, HoldsIn(p));
  }

  /** The lines written are exactly the renderings of the lines that hold:
      every holding line is written, nothing else is, and there are none
      exactly when no line holds. */
  lemma LinesExact(p: Record, specs: seq<LineSpec>)
    ensures forall n :: 0 <= n < |specs| && Holds(p, specs[n]) ==> Render(p, specs[n]) in Lines(p, specs)
    ensures forall x :: x in Lines(p, specs) ==>
      exists n :: 0 <= n < |specs| && Holds(p, specs[n]) && x == Render(p, specs[n])
    ensures Lines(p, specs) == [] <==> forall n :: 0 <= n < |specs| ==> !Holds(p, specs[n])
  {
    var parts, q := Lines(p, specs), HoldsIn(p);
    var sel, idx := Filter(specs, q), MatchIndices(specs, q);
    FilterSelectsInOrder(specs, q);
    forall n | 0 <= n < |specs| && Holds(p, specs[n])
      ensures Render(p, specs[n]) in parts
    {
      assert q(specs[n]);
      var j :| 0 <= j < |idx| && idx[j] == n;
      assert parts[j] == Render(p, specs[n]);
    }
    forall x | x in parts
      ensures exists n :: 0 <= n < |specs| && Holds(p, specs[n]) && x == Render(p, specs[n])
    {
      var j :| 0 <= j < |parts| && parts[j] == x;
      assert q(specs[idx[j]]);
    }
    if parts == [] {
      assert |idx| == 0;
      forall n | 0 <= n < |specs|
        ensures !Holds(p, specs[n])
      {
        assert n !in idx;
      }
    }
  }

  /** A line can hold only when the profile has the field it reads. */
  lemma HoldsNonEmpty(p: Record, l: LineSpec)
    requires Holds(p, l)
    ensures p != map[]
  {
    match l
    case Field(_, k) =>
      assert k in p;
    case Size =>
      assert "height" in p;
  }

  /** The lines of `get_health_context_for_ai`, in the fixed order of
      `ContextLines`, each the rendering of a line that holds. */
  function ContextParts(p: Record): (parts: seq<string>)
    ensures |parts| <= |ContextLines|
    ensures RendersSelected(p, ContextLines, parts)
  {
    Lines(p, ContextLines)
  }

  const ContextHeader := "PATIENT HEALTH PROFILE:\n"

  /** `"\n".join(parts)`. */
  function Join(parts: seq<string>, sep: string): string
    decreases |parts|
  {
    if parts == [] then ""
    else if |parts| == 1 then parts[0]
    else parts[0] + sep + Join(parts[1..], sep)
  }

  /** Every part of a join occurs in the joined string. */
  lemma {:induction false} JoinContainsPart(parts: seq<string>, sep: string, n: nat)
    requires n < |parts|
    ensures exists off :: OccursAt(Join(parts, sep), parts[n], off)
    decreases |parts|
  {
    var j := Join(parts, sep);
    if |parts| == 1 {
      assert j[0..|parts[0]|] == parts[0];
      assert OccursAt(j, parts[n], 0);
    } else if n == 0 {
      assert j == parts[0] + (sep + Join(parts[1..], sep));
      assert j[0..|parts[0]|] == parts[0];
      assert OccursAt(j, parts[n], 0);
    } else {
      JoinContainsPart(parts[1..], sep, n - 1);
      var rest := Join(parts[1..], sep);
      var off :| OccursAt(rest, parts[1..][n - 1], off);
      var pre := parts[0] + sep;
      assert j == pre + rest;
      assert j[|pre| + off..|pre| + off + |parts[n]|] == rest[off..off + |parts[n]|];
      assert OccursAt(j, parts[n], |pre| + off);
    }
  }

  /** Every part of a join still occurs after a prefix is put in front. */
  lemma PrefixedJoinContains(pre: string, parts: seq<string>, line: string)
    requires line in parts
    ensures Contains(pre + Join(parts, "\n"), line)
  {
    var n :| 0 <= n < |parts| && parts[n] == line;
    JoinContainsPart(parts, "\n", n);
    var j := Join(parts, "\n");
    var off :| OccursAt(j, line, off);
    var s := pre + j;
    assert s[|pre| + off..|pre| + off + |line|] == j[off..off + |line|];
    assert OccursAt(s, line, |pre| + off);
    ContainsSpec(s, line);
  }

  /** `get_health_context_for_ai`: `None` when the user has no profile, the
      profile is empty, or none of its summarised fields is set; otherwise the
      header followed by the lines. */
  function GetHealthContext(t: Table, uid: Json): (r: Option<string>)
    ensures r.Some? ==> |r.value| >= |ContextHeader| && r.value[..|ContextHeader|] == ContextHeader
    ensures r.Some? ==> (GetHealthProfile(t, uid).Some?
      && r.value == ContextHeader + Join(ContextParts(GetHealthProfile(t, uid).value), "\n"))
    ensures r.None? <==>
      || GetHealthProfile(t, uid).None?
      || GetHealthProfile(t, uid).value == map[]
      || ContextParts(GetHealthProfile(t, uid).value) == []
  {
    match GetHealthProfile(t, uid)
    case None => None
    case Some(p) =>
      if p == map[] then None
      else
        var parts := ContextParts(p);
        if parts == [] then None
        else Some(ContextHeader + Join(parts, "\n"))
  }

  /** The context exists exactly when the user's first profile has a summary
      line that holds, and then it mentions every such line. */
  lemma HealthContextMentions(t: Table, uid: Json)
    ensures GetHealthContext(t, uid).Some? <==>
      GetHealthProfile(t, uid).Some?
      && exists n :: 0 <= n < |ContextLines| && Holds(GetHealthProfile(t, uid).value, ContextLines[n])
    ensures GetHealthContext(t, uid).Some? ==>
      var p := GetHealthProfile(t, uid).value;
      forall n :: 0 <= n < |ContextLines| && Holds(p, ContextLines[n]) ==>
        Contains(GetHealthContext(t, uid).value, Render(p, ContextLines[n]))
  {
    var g := GetHealthProfile(t, uid);
    if g.Some? {
      var p := g.value;
      LinesExact(p, ContextLines);
      if n :| 0 <= n < |ContextLines| && Holds(p, ContextLines[n]) {
        HoldsNonEmpty(p, ContextLines[n]);
        forall m | 0 <= m < |ContextLines| && Holds(p, ContextLines[m])
          ensures Contains(GetHealthContext(t, uid).value, Render(p, ContextLines[m]))
        {
          PrefixedJoinContains(ContextHeader, ContextParts(p), Render(p, ContextLines[m]));
        }
      }
    }
  }
}

=== FILE: records.dfy ===
/** The entity tables of the record store: appointments, prescriptions,
    health records, reminders, medications and support tickets. Each `add_*`
    builds its row from the caller's fields and the clock and hands it to
    `Store.Add`; the `get_*` searches are `Store.Select` over the entity's
    name fields; `update_*` and `delete_*` are `Store.UpdateById` and
    `Store.DeleteById` on the entity's own table. */
module Records {
  import opened Values
  import opened Text
  import opened Seqs
  import opened Store

  /** The timestamps `datetime.now()` supplies, as opaque strings:
      `date` is `now.strftime("%Y-%m-%d")`, `iso` is `now.isoformat()`, and
      `tomorrowIso` is `(now + timedelta(days=1)).isoformat()`. */
  datatype Clock = Clock(date: string, iso: string, tomorrowIso: string)

  datatype Appointment = Appointment(
    patientName: string, doctorName: string, date: string, time: string,
    language: string, notes: string)

  datatype Prescription = Prescription(
    patientName: string, doctorName: string, medication: string, dosage: string,
    instructions: string, language: string, translatedText: string)

  datatype HealthRecord = HealthRecord(
    patientName: string, recordType: string, description: string,
    language: string, reportData: Json)

  datatype Reminder = Reminder(
    patientName: string, reminderType: string, message: string,
    language: string, phoneNumber: string)

  datatype Medication = Medication(
    patientName: string, medicationName: string, dosage: string, frequency: string,
    startDate: string, endDate: Option<string>, notes: string)

  datatype SupportTicket = SupportTicket(
    userId: Json, userName: string, userEmail: string, category: string,
    description: string, language: string)

  /** The fields `get_appointments` searches. */
  const AppointmentSearch: seq<string> := ["patient_name", "doctor_name"]

  /** The field the prescription, health-record, reminder and medication
      searches use. */
  const PatientSearch: seq<string> := ["patient_name"]

  /** The fields an appointment row is built with, before its id. */
  const AppointmentFields: set<string> := {
    "patient_name", "doctor_name", "date", "time", "language", "notes", "status", "created_at"}

  function AppointmentRow(a: Appointment, now: Clock): (r: Record)
    ensures r.Keys == AppointmentFields
    ensures r["status"] == Str("Scheduled")
    ensures r["patient_name"] == Str(a.patientName) && r["doctor_name"] == Str(a.doctorName)
    ensures r["date"] == Str(a.date) && r["time"] == Str(a.time) && r["language"] == Str(a.language)
    ensures r["notes"] == Str(a.notes) && r["created_at"] == Str(now.iso)
  {
    map[
      "patient_name" := Str(a.patientName), "doctor_name" := Str(a.doctorName),
      "date" := Str(a.date), "time" := Str(a.time), "language" := Str(a.language),
      "notes" := Str(a.notes), "status" := Str("Scheduled"), "created_at" := Str(now.iso)]
  }

  /** `add_appointment`: appended with the next id and status "Scheduled". */
  function AddAppointment(t: Table, a: Appointment, now: Clock): (r: Added)
    ensures r.table == t + [r.row] && IdIs(r.row, |t| + 1)
    ensures r.row.Keys == AppointmentFields + {"id"}
    ensures r.row["status"] == Str("Scheduled")
    ensures r.row["patient_name"] == Str(a.patientName) && r.row["doctor_name"] == Str(a.doctorName)
    ensures r.row["date"] == Str(a.date) && r.row["time"] == Str(a.time)
    ensures r.row["language"] == Str(a.language)
    ensures r.row["notes"] == Str(a.notes) && r.row["created_at"] == Str(now.iso)
  {
    Add(t, AppointmentRow(a, now))
  }

  /** The fields a prescription row is built with, before its id. */
  const PrescriptionFields: set<string> := {
    "patient_name", "doctor_name", "medication", "dosage", "instructions", "language",
    "translated_text", "date", "created_at"}

  function PrescriptionRow(p: Prescription, now: Clock): (r: Record)
    ensures r.Keys == PrescriptionFields
    ensures r["patient_name"] == Str(p.patientName) && r["doctor_name"] == Str(p.doctorName)
    ensures r["medication"] == Str(p.medication) && r["dosage"] == Str(p.dosage)
    ensures r["instructions"] == Str(p.instructions) && r["language"] == Str(p.language)
    ensures r["translated_text"] == Str(p.translatedText)
    ensures r["date"] == Str(now.date) && r["created_at"] == Str(now.iso)
  {
    map[
      "patient_name" := Str(p.patientName), "doctor_name" := Str(p.doctorName),
      "medication" := Str(p.medication), "dosage" := Str(p.dosage),
      "instructions" := Str(p.instructions), "language" := Str(p.language),
      "translated_text" := Str(p.translatedText), "date" := Str(now.date),
      "created_at" := Str(now.iso)]
  }

  /** `add_prescription`: appended with the next id, dated today. */
  function AddPrescription(t: Table, p: Prescription, now: Clock): (r: Added)
    ensures r.table == t + [r.row] && IdIs(r.row, |t| + 1)
    ensures r.row.Keys == PrescriptionFields + {"id"}
    ensures r.row["patient_name"] == Str(p.patientName) && r.row["doctor_name"] == Str(p.doctorName)
    ensures r.row["medication"] == Str(p.medication) && r.row["dosage"] == Str(p.dosage)
    ensures r.row["instructions"] == Str(p.instructions) && r.row["language"] == Str(p.language)
    ensures r.row["translated_text"] == Str(p.translatedText)
    ensures r.row["date"] == Str(now.date) && r.row["created_at"] == Str(now.iso)
  {
    Add(t, PrescriptionRow(p, now))
  }

  /** The fields a health-record row is built with, before its id. */
  const HealthRecordFields: set<string> := {
    "patient_name", "record_type", "description", "language", "report_data", "date", "created_at"}

  function HealthRecordRow(h: HealthRecord, now: Clock): (r: Record)
    ensures r.Keys == HealthRecordFields
    ensures r["patient_name"] == Str(h.patientName) && r["record_type"] == Str(h.recordType)
    ensures r["description"] == Str(h.description) && r["language"] == Str(h.language)
    ensures r["date"] == Str(now.date) && r["created_at"] == Str(now.iso)
    ensures r["report_data"] == if Truthy(h.reportData) then h.reportData else Obj(map[])
  {
    map[
      "patient_name" := Str(h.patientName), "record_type" := Str(h.recordType),
      "description" := Str(h.description), "language" := Str(h.language),
      "report_data" := (if Truthy(h.reportData) then h.reportData else Obj(map[])),
      "date" := Str(now.date), "created_at" := Str(now.iso)]
  }

  /** `add_health_record`: `report_data or {}` stores an empty object for a
      missing (or otherwise falsy) report and the report itself otherwise. */
  function AddHealthRecord(t: Table, h: HealthRecord, now: Clock): (r: Added)
    ensures r.table == t + [r.row] && IdIs(r.row, |t| + 1)
    ensures r.row.Keys == HealthRecordFields + {"id"}
    ensures r.row["patient_name"] == Str(h.patientName) && r.row["record_type"] == Str(h.recordType)
    ensures r.row["description"] == Str(h.description) && r.row["language"] == Str(h.language)
    ensures r.row["date"] == Str(now.date) && r.row["created_at"] == Str(now.iso)
    ensures r.row["report_data"] == if Truthy(h.reportData) then h.reportData else Obj(map[])
    ensures Truthy(r.row["report_data"]) || r.row["report_data"] == Obj(map[])
  {
    Add(t, HealthRecordRow(h, now))
  }

  /** The fields a reminder row is built with, before its id. */
  const ReminderFields: set<string> := {
    "patient_name", "reminder_type", "message", "language", "phone_number", "status",
    "created_at", "scheduled_for"}

  function ReminderRow(m: Reminder, now: Clock): (r: Record)
    ensures r.Keys == ReminderFields
    ensures r["patient_name"] == Str(m.patientName) && r["reminder_type"] == Str(m.reminderType)
    ensures r["message"] == Str(m.message) && r["language"] == Str(m.language)
    ensures r["phone_number"] == Str(m.phoneNumber) && r["created_at"] == Str(now.iso)
    ensures r["status"] == Str("Pending") && r["scheduled_for"] == Str(now.tomorrowIso)
  {
    map[
      "patient_name" := Str(m.patientName), "reminder_type" := Str(m.reminderType),
      "message" := Str(m.message), "language" := Str(m.language),
      "phone_number" := Str(m.phoneNumber), "status" := Str("Pending"),
      "created_at" := Str(now.iso), "scheduled_for" := Str(now.tomorrowIso)]
  }

  /** `add_reminder`: appended with status "Pending", scheduled a day ahead. */
  function AddReminder(t: Table, m: Reminder, now: Clock): (r: Added)
    ensures r.table == t + [r.row] && IdIs(r.row, |t| + 1)
    ensures r.row.Keys == ReminderFields + {"id"}
    ensures r.row["patient_name"] == Str(m.patientName) && r.row["reminder_type"] == Str(m.reminderType)
    ensures r.row["message"] == Str(m.message) && r.row["language"] == Str(m.language)
    ensures r.row["phone_number"] == Str(m.phoneNumber) && r.row["created_at"] == Str(now.iso)
    ensures r.row["status"] == Str("Pending")
    ensures r.row["scheduled_for"] == Str(now.tomorrowIso)
  {
    Add(t, ReminderRow(m, now))
  }

  /** The fields a medication row is built with, before its id. */
  const MedicationFields: set<string> := {
    "patient_name", "medication_name", "dosage", "frequency", "start_date", "end_date",
    "notes", "status", "created_at"}

  function MedicationRow(m: Medication, now: Clock): (r: Record)
    ensures r.Keys == MedicationFields
    ensures r["patient_name"] == Str(m.patientName) && r["medication_name"] == Str(m.medicationName)
    ensures r["dosage"] == Str(m.dosage) && r["frequency"] == Str(m.frequency)
    ensures r["start_date"] == Str(m.startDate) && r["notes"] == Str(m.notes)
    ensures r["created_at"] == Str(now.iso)
    ensures r["status"] == Str("Active")
    ensures r["end_date"] == match m.endDate case None => Null case Some(d) => Str(d)
  {
    map[
      "patient_name" := Str(m.patientName), "medication_name" := Str(m.medicationName),
      "dosage" := Str(m.dosage), "frequency" := Str(m.frequency),
      "start_date" := Str(m.startDate),
      "end_date" := (match m.endDate case None => Null case Some(d) => Str(d)),
      "notes" := Str(m.notes), "status" := Str("Active"), "created_at" := Str(now.iso)]
  }

  /** `add_medication`: appended with status "Active"; no end date is `null`. */
  function AddMedication(t: Table, m: Medication, now: Clock): (r: Added)
    ensures r.table == t + [r.row] && IdIs(r.row, |t| + 1)
    ensures r.row.Keys == MedicationFields + {"id"}
    ensures r.row["patient_name"] == Str(m.patientName) && r.row["medication_name"] == Str(m.medicationName)
    ensures r.row["dosage"] == Str(m.dosage) && r.row["frequency"] == Str(m.frequency)
    ensures r.row["start_date"] == Str(m.startDate) && r.row["notes"] == Str(m.notes)
    ensures r.row["created_at"] == Str(now.iso)
    ensures r.row["status"] == Str("Active")
    ensures r.row["end_date"] == match m.endDate case None => Null case Some(d) => Str(d)
  {
    Add(t, MedicationRow(m, now))
  }

  /** The fields a support-ticket row is built with, before its id. */
  const SupportTicketFields: set<string> := {
    "user_id", "user_name", "user_email", "category", "description", "language", "status",
    "created_at"}

  function SupportTicketRow(k: SupportTicket, now: Clock): (r: Record)
    ensures r.Keys == SupportTicketFields
    ensures r["user_name"] == Str(k.userName) && r["user_email"] == Str(k.userEmail)
    ensures r["category"] == Str(k.category) && r["description"] == Str(k.description)
    ensures r["language"] == Str(k.language) && r["created_at"] == Str(now.iso)
    ensures r["status"] == Str("Open") && r["user_id"] == k.userId
  {
    map[
      "user_id" := k.userId, "user_name" := Str(k.userName), "user_email" := Str(k.userEmail),
      "category" := Str(k.category), "description" := Str(k.description),
      "language" := Str(k.language), "status" := Str("Open"), "created_at" := Str(now.iso)]
  }

  /** `add_support_ticket`: appended with status "Open"; always succeeds. */
  function AddSupportTicket(t: Table, k: SupportTicket, now: Clock): (r: Added)
    ensures r.table == t + [r.row] && IdIs(r.row, |t| + 1)
    ensures r.row.Keys == SupportTicketFields + {"id"}
    ensures r.row["user_name"] == Str(k.userName) && r.row["user_email"] == Str(k.userEmail)
    ensures r.row["category"] == Str(k.category) && r.row["description"] == Str(k.description)
    ensures r.row["language"] == Str(k.language) && r.row["created_at"] == Str(now.iso)
    ensures r.row["status"] == Str("Open") && r.row["user_id"] == k.userId
  {
    Add(t, SupportTicketRow(k, now))
  }

  /** The row's field, lowered, contains the lowered filter. */
  predicate FieldMatches(r: Record, key: string, f: string) {
    Contains(Lower(TextOf(r, key)), Lower(f))
  }

  lemma MatchesAppointment(r: Record, f: string)
    ensures MatchesText(r, AppointmentSearch, f)
        <==> FieldMatches(r, "patient_name", f) || FieldMatches(r, "doctor_name", f)
  {
    if FieldMatches(r, "patient_name", f) {
      assert AppointmentSearch[0] == "patient_name";
    }
    if FieldMatches(r, "doctor_name", f) {
      assert AppointmentSearch[1] == "doctor_name";
    }
  }

  lemma MatchesPatient(r: Record, f: string)
    ensures MatchesText(r, PatientSearch, f) <==> FieldMatches(r, "patient_name", f)
  {
    if FieldMatches(r, "patient_name", f) {
      assert PatientSearch[0] == "patient_name";
    }
  }

  /** The selected rows are table rows that match, and every matching table
      row is selected. */
  lemma SelectMembers(t: Table, keys: seq<string>, f: string)
    requires SearchReadable(t, keys, f) && f != ""
    ensures forall x :: x in Select(t, keys, Some(f)) ==> x in t && MatchesText(x, keys, f)
    ensures forall i :: 0 <= i < |t| && MatchesText(t[i], keys, f) ==> t[i] in Select(t, keys, Some(f))
  {
    var r := Select(t, keys, Some(f));
    var p := MatchPred(keys, f);
    var idx := MatchIndices(t, p);
    forall i | 0 <= i < |t| && MatchesText(t[i], keys, f)
      ensures t[i] in r
    {
      assert p(t[i]);
      var j :| 0 <= j < |idx| && idx[j] == i;
      assert r[j] == t[i];
    }
  }

  lemma AppointmentMembers(t: Table, f: string)
    requires SearchReadable(t, AppointmentSearch, f) && f != ""
    ensures forall x :: x in Select(t, AppointmentSearch, Some(f)) ==>
      x in t && (FieldMatches(x, "patient_name", f) || FieldMatches(x, "doctor_name", f))
    ensures forall i :: (0 <= i < |t| &&
      (FieldMatches(t[i], "patient_name", f) || FieldMatches(t[i], "doctor_name", f))) ==>
      t[i] in Select(t, AppointmentSearch, Some(f))
  {
    SelectMembers(t, AppointmentSearch, f);
    forall x: Record
      ensures MatchesText(x, AppointmentSearch, f)
        <==> FieldMatches(x, "patient_name", f) || FieldMatches(x, "doctor_name", f)
    {
      MatchesAppointment(x, f);
    }
  }

  lemma PatientMembers(t: Table, f: string)
    requires SearchReadable(t, PatientSearch, f) && f != ""
    ensures forall x :: x in Select(t, PatientSearch, Some(f)) ==>
      x in t && FieldMatches(x, "patient_name", f)
    ensures forall i :: 0 <= i < |t| && FieldMatches(t[i], "patient_name", f) ==>
      t[i] in Select(t, PatientSearch, Some(f))
  {
    SelectMembers(t, PatientSearch, f);
    forall x: Record
      ensures MatchesText(x, PatientSearch, f) <==> FieldMatches(x, "patient_name", f)
    {
      MatchesPatient(x, f);
    }
  }

  /** `get_appointments`: without a filter the whole table; with one, in
      table order, exactly the rows whose patient or doctor name contains it,
      ignoring case. */
  function GetAppointments(t: Table, f: Option<string>): (r: Table)
    requires !NoFilter(f) ==> SearchReadable(t, AppointmentSearch, f.value)
    ensures NoFilter(f) ==> r == t
    ensures !NoFilter(f) ==> forall x :: x in r ==>
      x in t && (FieldMatches(x, "patient_name", f.value) || FieldMatches(x, "doctor_name", f.value))
    ensures !NoFilter(f) ==> forall i :: (0 <= i < |t| &&
      (FieldMatches(t[i], "patient_name", f.value) || FieldMatches(t[i], "doctor_name", f.value))) ==> t[i] in r
    ensures !NoFilter(f) ==>
      SelectsInOrder(t, MatchPred(AppointmentSearch, f.value), r,
                     MatchIndices(t, MatchPred(AppointmentSearch, f.value)))
  {
    if NoFilter(f) then t
    else
      AppointmentMembers(t, f.value);
      Select(t, AppointmentSearch, f)
  }

  /** `get_prescriptions`, `get_health_records`, `get_reminders` and
      `get_medications`: the same search on `patient_name` alone. */
  function GetByPatient(t: Table, f: Option<string>): (r: Table)
    requires !NoFilter(f) ==> SearchReadable(t, PatientSearch, f.value)
    ensures NoFilter(f) ==> r == t
    ensures !NoFilter(f) ==> forall x :: x in r ==> x in t && FieldMatches(x, "patient_name", f.value)
    ensures !NoFilter(f) ==> forall i :: 0 <= i < |t| && FieldMatches(t[i], "patient_name", f.value) ==> t[i] in r
    ensures !NoFilter(f) ==>
      SelectsInOrder(t, MatchPred(PatientSearch, f.value), r,
                     MatchIndices(t, MatchPred(PatientSearch, f.value)))
  {
    if NoFilter(f) then t
    else
      PatientMembers(t, f.value);
      Select(t, PatientSearch, f)
  }

  /** `h.get('user_id') == user_id`. */
  function UserPred(uid: Json): Record -> bool {
    r => Get(r, "user_id") == uid
  }

  /** `get_saved_hospitals` and `get_support_tickets`: with a truthy user id,
      the rows stored under exactly that id, in order; otherwise all rows. */
  function SelectByUser(t: Table, uid: Json): (r: Table)
    ensures !Truthy(uid) ==> r == t
    ensures Truthy(uid) ==> SelectsInOrder(t, UserPred(uid), r, MatchIndices(t, UserPred(uid)))
    ensures Truthy(uid) ==> forall x :: x in r ==> x in t && Get(x, "user_id") == uid
  {
    if Truthy(uid) then
      FilterSelectsInOrder(t, UserPred(uid));
      Filter(t, UserPred(uid))
    else t
  }

  /** An appointment just added is found, last, by any filter its patient or
      doctor name contains; the earlier results are unchanged. */
  lemma AddThenGetAppointment(t: Table, a: Appointment, now: Clock, f: string)
    requires TextFieldsOk(t, AppointmentSearch) && f != ""
    requires Contains(Lower(a.patientName), Lower(f)) || Contains(Lower(a.doctorName), Lower(f))
    ensures TextFieldsOk(AddAppointment(t, a, now).table, AppointmentSearch)
    ensures var added := AddAppointment(t, a, now);
            GetAppointments(added.table, Some(f)) == GetAppointments(t, Some(f)) + [added.row]
  {
    var added := AddAppointment(t, a, now);
    AddAppointmentKeepsSearchable(t, a, now);
    var p := MatchPred(AppointmentSearch, f);
    assert TextOf(added.row, "patient_name") == a.patientName;
    assert TextOf(added.row, "doctor_name") == a.doctorName;
    MatchesAppointment(added.row, f);
    assert p(added.row);
    FilterSnoc(t, added.row, p);
    AppointmentSearchIsFilter(t, f);
    AppointmentSearchIsFilter(added.table, f);
  }

  /** A filtered appointment search is a plain selection. */
  lemma AppointmentSearchIsFilter(t: Table, f: string)
    requires TextFieldsOk(t, AppointmentSearch) && f != ""
    ensures GetAppointments(t, Some(f)) == Filter(t, MatchPred(AppointmentSearch, f))
  {
  }

  /** A filtered patient search is a plain selection. */
  lemma PatientSearchIsFilter(t: Table, f: string)
    requires TextFieldsOk(t, PatientSearch) && f != ""
    ensures GetByPatient(t, Some(f)) == Filter(t, MatchPred(PatientSearch, f))
  {
  }

  /** A row added under the string patient name `name` keeps the patient
      search defined, and that search then returns what it returned before,
      followed by the new row exactly when `name` contains the filter. */
  lemma AddThenGetByPatient(t: Table, fields: Record, name: string, f: string)
    requires TextFieldsOk(t, PatientSearch) && f != "" && "id" !in fields
    requires "patient_name" in fields && fields["patient_name"] == Str(name)
    ensures TextFieldsOk(Add(t, fields).table, PatientSearch)
    ensures var added := Add(t, fields);
            GetByPatient(added.table, Some(f)) ==
            GetByPatient(t, Some(f)) + (if FieldMatches(added.row, "patient_name", f) then [added.row] else [])
    ensures FieldMatches(Add(t, fields).row, "patient_name", f) <==> Contains(Lower(name), Lower(f))
  {
    var added := Add(t, fields);
    AddKeepsTextFields(t, fields, PatientSearch);
    var p := MatchPred(PatientSearch, f);
    assert TextOf(added.row, "patient_name") == name;
    MatchesPatient(added.row, f);
    FilterSnoc(t, added.row, p);
    PatientSearchIsFilter(t, f);
    PatientSearchIsFilter(added.table, f);
  }

  /** A prescription just added is found, last, by any filter its patient
      name contains, and by no other. */
  lemma AddThenGetPrescription(t: Table, x: Prescription, now: Clock, f: string)
    requires TextFieldsOk(t, PatientSearch) && f != ""
    ensures TextFieldsOk(AddPrescription(t, x, now).table, PatientSearch)
    ensures var added := AddPrescription(t, x, now);
            GetByPatient(added.table, Some(f)) ==
            GetByPatient(t, Some(f)) + (if Contains(Lower(x.patientName), Lower(f)) then [added.row] else [])
  {
    AddThenGetByPatient(t, PrescriptionRow(x, now), x.patientName, f);
  }

  /** The same for a health record. */
  lemma AddThenGetHealthRecord(t: Table, x: HealthRecord, now: Clock, f: string)
    requires TextFieldsOk(t, PatientSearch) && f != ""
    ensures TextFieldsOk(AddHealthRecord(t, x, now).table, PatientSearch)
    ensures var added := AddHealthRecord(t, x, now);
            GetByPatient(added.table, Some(f)) ==
            GetByPatient(t, Some(f)) + (if Contains(Lower(x.patientName), Lower(f)) then [added.row] else [])
  {
    AddThenGetByPatient(t, HealthRecordRow(x, now), x.patientName, f);
  }

  /** The same for a reminder. */
  lemma AddThenGetReminder(t: Table, x: Reminder, now: Clock, f: string)
    requires TextFieldsOk(t, PatientSearch) && f != ""
    ensures TextFieldsOk(AddReminder(t, x, now).table, PatientSearch)
    ensures var added := AddReminder(t, x, now);
            GetByPatient(added.table, Some(f)) ==
            GetByPatient(t, Some(f)) + (if Contains(Lower(x.patientName), Lower(f)) then [added.row] else [])
  {
    AddThenGetByPatient(t, ReminderRow(x, now), x.patientName, f);
  }

  /** The same for a medication. */
  lemma AddThenGetMedication(t: Table, x: Medication, now: Clock, f: string)
    requires TextFieldsOk(t, PatientSearch) && f != ""
    ensures TextFieldsOk(AddMedication(t, x, now).table, PatientSearch)
    ensures var added := AddMedication(t, x, now);
            GetByPatient(added.table, Some(f)) ==
            GetByPatient(t, Some(f)) + (if Contains(Lower(x.patientName), Lower(f)) then [added.row] else [])
  {
    AddThenGetByPatient(t, MedicationRow(x, now), x.patientName, f);
  }

  /** Two identical `add_appointment` calls create two rows with different ids:
      there is no de-duplication. */
  lemma AddTwiceDistinctIds(t: Table, a: Appointment, now: Clock)
    ensures var first := AddAppointment(t, a, now);
            var second := AddAppointment(first.table, a, now);
            |second.table| == |t| + 2 && first.row["id"] != second.row["id"]
  {
  }

  /** Selection from a three-element sequence, spelled out. */
  lemma FilterOfThree<T>(x: T, y: T, z: T, p: T -> bool)
    ensures Filter([x, y, z], p)
         == (if p(x) then [x] else []) + (if p(y) then [y] else []) + (if p(z) then [z] else [])
  {
    FilterSnoc([], x, p);
    assert [] + [x] == [x];
    FilterSnoc([x], y, p);
    assert [x] + [y] == [x, y];
    FilterSnoc([x, y], z, p);
    assert [x, y] + [z] == [x, y, z];
  }

  /** The case-insensitive tests the scenario below relies on. */
  lemma ScenarioText()
    ensures Contains(Lower("A"), Lower("a"))
    ensures !Contains(Lower("B"), Lower("a")) && !Contains(Lower("D"), Lower("a"))
  {
    assert Lower("a") == "a" && Lower("A") == "a";
    assert Lower("B") == "b" && Lower("D") == "d";
    ContainsSelf("a");
    assert "b"[..1] == "b" && "b"[1..] == "";
    assert "d"[..1] == "d" && "d"[1..] == "";
  }

  /** The scenario's search matches the rows for "A" and not the row for "B". */
  lemma ScenarioMatches(r1: Record, r2: Record)
    requires TextOf(r1, "patient_name") == "A"
    requires TextOf(r2, "patient_name") == "B" && TextOf(r2, "doctor_name") == "D"
    ensures MatchPred(AppointmentSearch, "a")(r1)
    ensures !MatchPred(AppointmentSearch, "a")(r2)
  {
    ScenarioText();
    MatchesAppointment(r1, "a");
    MatchesAppointment(r2, "a");
  }

  /** Appointments are added with string names, so the search stays defined. */
  lemma AddAppointmentKeepsSearchable(t: Table, a: Appointment, now: Clock)
    requires TextFieldsOk(t, AppointmentSearch)
    ensures TextFieldsOk(AddAppointment(t, a, now).table, AppointmentSearch)
  {
    AddKeepsTextFields(t, AppointmentRow(a, now), AppointmentSearch);
  }

  /** Searching "a" among two rows for patient "A" around one for "B" (with
      doctor "D") finds the first and the last. */
  lemma SearchThree(r1: Record, r2: Record, r3: Record)
    requires TextFieldsOk([r1, r2, r3], AppointmentSearch)
    requires TextOf(r1, "patient_name") == "A" && TextOf(r3, "patient_name") == "A"
    requires TextOf(r2, "patient_name") == "B" && TextOf(r2, "doctor_name") == "D"
    ensures GetAppointments([r1, r2, r3], Some("a")) == [r1, r3]
  {
    var p := MatchPred(AppointmentSearch, "a");
    ScenarioMatches(r1, r2);
    ScenarioMatches(r3, r2);
    FilterOfThree(r1, r2, r3, p);
    assert Select([r1, r2, r3], AppointmentSearch, Some("a")) == Filter([r1, r2, r3], p);
  }
}

=== FILE: retry.dfy ===
/** The retry wrapper every AI call goes through: up to `MaxRetries`
    invocations, a growing pause after each failed one but the last, and the
    last exception re-raised when none succeeds. An invocation is modelled
    by its outcome, `f(k)` being what the `k`-th call (counting from 0)
    returns or raises; the pauses are recorded instead of slept. */
module Retry {

  /** What one call does: return a value or raise an exception (kept as
      its `str()`). */
  datatype Outcome<+T> = Returned(value: T) | Raised(error: string)

  const MaxRetries: nat := 3

  /** Seconds; the pause after failed call `k` is `RetryDelay * (k + 1)`. */
  const RetryDelay: nat := 2

  /** The outcome of the wrapper, how many calls it made and the pauses it
      took, in order. */
  datatype Run<+T> = Run(result: Outcome<T>, calls: nat, sleeps: seq<nat>)

  /** The pauses a run that makes `n` calls takes: one after each call but
      the last, growing linearly. */
  predicate LinearSleeps(sleeps: seq<nat>, calls: nat) {
    && |sleeps| + 1 == calls
    && forall k :: 0 <= k < |sleeps| ==> sleeps[k] == RetryDelay * (k + 1)
  }

  /** The loop from iteration `attempt` on. */
  function Loop<T>(f: nat -> Outcome<T>, attempt: nat): (r: Run<T>)
    requires attempt < MaxRetries
    ensures attempt < r.calls <= MaxRetries
    ensures r.result == f(r.calls - 1)
    ensures forall k :: attempt <= k < r.calls - 1 ==> f(k).Raised?
    ensures r.result.Raised? ==> r.calls == MaxRetries
    ensures |r.sleeps| == r.calls - 1 - attempt
    ensures forall k :: 0 <= k < |r.sleeps| ==> r.sleeps[k] == RetryDelay * (attempt + k + 1)
    decreases MaxRetries - attempt
  {
    match f(attempt)
    case Returned(v) => Run(Returned(v), attempt + 1, [])
    case Raised(e) =>
      if attempt < MaxRetries - 1 then
        var r := Loop(f, attempt + 1);
        Run(r.result, r.calls, [RetryDelay * (attempt + 1)] + r.sleeps)
      else Run(Raised(e), attempt + 1, [])
  }

  /** `with_retry(func)`: the first call that returns decides the result and
      no call follows it; every call before it raised; a run that never
      returns makes exactly three calls and raises what the third raised. */
  function WithRetry<T>(f: nat -> Outcome<T>): (r: Run<T>)
    ensures 1 <= r.calls <= MaxRetries
    ensures r.result == f(r.calls - 1)
    ensures forall k :: 0 <= k < r.calls - 1 ==> f(k).Raised?
    ensures r.result.Raised? ==> r.calls == MaxRetries
    ensures LinearSleeps(r.sleeps, r.calls)
  {
    Loop(f, 0)
  }

  /** Every one of the allowed calls raises. */
  ghost predicate AllFail<T>(f: nat -> Outcome<T>) {
    forall k :: 0 <= k < MaxRetries ==> f(k).Raised?
  }

  /** The first call that returns, or `MaxRetries` when none does. */
  function FirstSuccess<T>(f: nat -> Outcome<T>, from: nat): (k: nat)
    requires from <= MaxRetries
    ensures from <= k <= MaxRetries
    ensures forall j :: from <= j < k ==> f(j).Raised?
    ensures k < MaxRetries ==> f(k).Returned?
    decreases MaxRetries - from
  {
    if from == MaxRetries || f(from).Returned? then from else FirstSuccess(f, from + 1)
  }

  /** The wrapper returns exactly when one of the three calls returns, and
      then it returns the first such call's value after that many calls. */
  lemma WithRetrySucceeds<T>(f: nat -> Outcome<T>)
    ensures var r, k := WithRetry(f), FirstSuccess(f, 0);
      && (r.result.Returned? <==> !AllFail(f))
      && (k < MaxRetries ==> r.calls == k + 1 && r.result == f(k))
      && (k == MaxRetries ==> r.calls == MaxRetries && r.result == f(MaxRetries - 1))
  {
    var r, k := WithRetry(f), FirstSuccess(f, 0);
    if r.result.Returned? {
      assert f(r.calls - 1).Returned?;
    }
  }

  /** Three failures: three calls, pauses of 2 and 4 seconds, and the third
      exception re-raised. */
  lemma AllFailRun<T>(f: nat -> Outcome<T>)
    requires AllFail(f)
    ensures WithRetry(f) == Run(f(2), 3, [2, 4])
  {
    var r := WithRetry(f);
    assert f(r.calls - 1).Raised?;
    assert r.sleeps == [2, 4];
  }

  function Total(s: seq<nat>): nat {
    if s == [] then 0 else s[0] + Total(s[1..])
  }

  /** The time spent sleeping never exceeds 2 + 4 = 6 seconds, and there is
      no pause after the last call. */
  lemma SleepBound<T>(f: nat -> Outcome<T>)
    ensures Total(WithRetry(f).sleeps) <= 6
    ensures |WithRetry(f).sleeps| == WithRetry(f).calls - 1
  {
    var s := WithRetry(f).sleeps;
    assert |s| <= 2;
    if |s| == 1 {
      assert s == [2];
    } else if |s| == 2 {
      assert s[0] == 2 && s[1] == 4;
      assert Total(s[1..]) == s[1] + Total(s[2..]);
      assert Total(s[2..]) == 0;
    }
  }

  /** The wrapper looks only at whether each call raised, never at what it
      raised: two calls sequences that raise at the same attempts and return
      the same values run alike, and differ at most in the final error. */
  lemma RetryIgnoresErrorKind<T>(f: nat -> Outcome<T>, g: nat -> Outcome<T>)
    requires forall k :: 0 <= k < MaxRetries ==> f(k).Raised? == g(k).Raised?
    requires forall k :: 0 <= k < MaxRetries && f(k).Returned? ==> f(k) == g(k)
    ensures WithRetry(f).calls == WithRetry(g).calls
    ensures WithRetry(f).sleeps == WithRetry(g).sleeps
    ensures WithRetry(f).result.Returned? ==> WithRetry(f).result == WithRetry(g).result
  {
    var a, b := WithRetry(f), WithRetry(g);
    var k, j := FirstSuccess(f, 0), FirstSuccess(g, 0);
    WithRetrySucceeds(f);
    WithRetrySucceeds(g);
    FirstSuccessAgree(f, g, 0);
    assert |a.sleeps| == |b.sleeps|;
  }

  lemma {:induction false} FirstSuccessAgree<T>(f: nat -> Outcome<T>, g: nat -> Outcome<T>, from: nat)
    requires from <= MaxRetries
    requires forall k :: 0 <= k < MaxRetries ==> f(k).Raised? == g(k).Raised?
    ensures FirstSuccess(f, from) == FirstSuccess(g, from)
    decreases MaxRetries - from
  {
    if from < MaxRetries && f(from).Raised? {
      FirstSuccessAgree(f, g, from + 1);
    }
  }

  /** Two call sequences that agree on the allowed calls run identically. */
  lemma WithRetryCongruent<T>(f: nat -> Outcome<T>, g: nat -> Outcome<T>)
    requires forall k :: 0 <= k < MaxRetries ==> f(k) == g(k)
    ensures WithRetry(f) == WithRetry(g)
  {
    LoopCongruent(f, g, 0);
  }

  lemma {:induction false} LoopCongruent<T>(f: nat -> Outcome<T>, g: nat -> Outcome<T>, attempt: nat)
    requires attempt < MaxRetries
    requires forall k :: 0 <= k < MaxRetries ==> f(k) == g(k)
    ensures Loop(f, attempt) == Loop(g, attempt)
    decreases MaxRetries - attempt
  {
    if f(attempt).Raised? && attempt < MaxRetries - 1 {
      LoopCongruent(f, g, attempt + 1);
    }
  }
}

=== FILE: seqs.dfy ===
/** Order-preserving selection and first-match search over sequences: the two
    list idioms (`[x for x in xs if p(x)]` and the `for ... break` scan) that
    every table operation of the store is built from. */
module Seqs {

  /** `[x for x in s if p(x)]`. */
  function Filter<T>(s: seq<T>, p: T -> bool): (r: seq<T>)
    ensures |r| <= |s|
    ensures forall x :: x in r ==> x in s && p(x)
    decreases |s|
  {
    if s == [] then []
    else Filter(s[..|s| - 1], p) + (if p(s[|s| - 1]) then [s[|s| - 1]] else [])
  }

  /** Strictly increasing positions. */
  predicate Increasing(idx: seq<nat>) {
    forall j, k :: 0 <= j < k < |idx| ==> idx[j] < idx[k]
  }

  /** The positions of `s` whose element satisfies `p`, in ascending order. */
  ghost function MatchIndices<T>(s: seq<T>, p: T -> bool): (idx: seq<nat>)
    ensures forall j :: 0 <= j < |idx| ==> idx[j] < |s|
    decreases |s|
  {
    if s == [] then []
    else MatchIndices(s[..|s| - 1], p) + (if p(s[|s| - 1]) then [|s| - 1] else [])
  }

  /** `r` lists, in their original order, exactly the elements of `s` at the
      positions `idx`, and those are exactly the positions satisfying `p`. */
  ghost predicate SelectsInOrder<T>(s: seq<T>, p: T -> bool, r: seq<T>, idx: seq<nat>) {
    && |idx| == |r|
    && Increasing(idx)
    && (forall j :: 0 <= j < |idx| ==> idx[j] < |s| && r[j] == s[idx[j]])
    && (forall i :: 0 <= i < |s| ==> (p(s[i]) <==> i in idx))
  }

  /** The filter keeps precisely the satisfying elements, in order. */
  lemma {:induction false} FilterSelectsInOrder<T>(s: seq<T>, p: T -> bool)
    ensures SelectsInOrder(s, p, Filter(s, p), MatchIndices(s, p))
    decreases |s|
  {
    if s != [] {
      var n := |s| - 1;
      var s' := s[..n];
      FilterSelectsInOrder(s', p);
      var idx', r' := MatchIndices(s', p), Filter(s', p);
      var tail, rtail := if p(s[n]) then [n] else [], if p(s[n]) then [s[n]] else [];
      assert MatchIndices(s, p) == idx' + tail;
      assert Filter(s, p) == r' + rtail;
      SnocSelects(s', p, r', idx', s[n]);
      assert s' + [s[n]] == s;
    }
  }

  /** One step of the induction above: extending `s` by `x`. */
  lemma SnocSelects<T>(s: seq<T>, p: T -> bool, r: seq<T>, idx: seq<nat>, x: T)
    requires SelectsInOrder(s, p, r, idx)
    ensures SelectsInOrder(s + [x], p, r + (if p(x) then [x] else []),
                           idx + (if p(x) then [|s|] else []))
  {
    var s2 := s + [x];
    assert forall i :: 0 <= i < |s| ==> s2[i] == s[i];
    if p(x) {
      var idx2 := idx + [|s|];
      assert forall j :: 0 <= j < |idx| ==> idx2[j] == idx[j];
      assert forall i :: 0 <= i < |s| ==> (i in idx2 <==> i in idx);
    }
  }

  /** Selecting with a predicate that holds everywhere keeps the whole sequence. */
  lemma {:induction false} FilterAll<T>(s: seq<T>, p: T -> bool)
    requires forall i :: 0 <= i < |s| ==> p(s[i])
    ensures Filter(s, p) == s
    decreases |s|
  {
    if s != [] {
      FilterAll(s[..|s| - 1], p);
      assert s[..|s| - 1] + [s[|s| - 1]] == s;
    }
  }

  /** Selecting with a predicate that holds nowhere keeps nothing. */
  lemma {:induction false} FilterNone<T>(s: seq<T>, p: T -> bool)
    requires forall i :: 0 <= i < |s| ==> !p(s[i])
    ensures Filter(s, p) == []
    decreases |s|
  {
    if s != [] {
      FilterNone(s[..|s| - 1], p);
    }
  }

  /** Selecting from a sequence with one more element at the end. */
  lemma FilterSnoc<T>(s: seq<T>, x: T, p: T -> bool)
    ensures Filter(s + [x], p) == Filter(s, p) + (if p(x) then [x] else [])
  {
    assert (s + [x])[..|s|] == s;
  }

  /** Selection distributes over concatenation. */
  lemma {:induction false} FilterAppend<T>(a: seq<T>, b: seq<T>, p: T -> bool)
    ensures Filter(a + b, p) == Filter(a, p) + Filter(b, p)
    decreases |b|
  {
    if b == [] {
      assert a + b == a;
    } else {
      var b' := b[..|b| - 1];
      var x := b[|b| - 1];
      assert a + b == (a + b') + [x];
      assert b == b' + [x];
      FilterAppend(a, b', p);
      FilterSnoc(a + b', x, p);
      FilterSnoc(b', x, p);
    }
  }

  /** Selecting from a non-empty sequence, seen from its front. */
  lemma FilterFront<T>(s: seq<T>, p: T -> bool)
    requires s != []
    ensures Filter(s, p) == (if p(s[0]) then [s[0]] else []) + Filter(s[1..], p)
  {
    assert s == [s[0]] + s[1..];
    FilterAppend([s[0]], s[1..], p);
    FilterSnoc([], s[0], p);
    assert [] + [s[0]] == [s[0]];
  }

  /** The number of elements satisfying `p`. */
  function Count<T>(s: seq<T>, p: T -> bool): nat {
    |Filter(s, p)|
  }

  /** The position of the first element satisfying `p`, or `|s|` when none does:
      the `for x in s: if p(x): ... break` scan. */
  function FirstIndex<T>(s: seq<T>, p: T -> bool): (i: nat)
    ensures i <= |s|
    ensures forall j :: 0 <= j < i ==> !p(s[j])
    ensures i < |s| ==> p(s[i])
    decreases |s|
  {
    if s == [] then 0
    else if p(s[0]) then 0
    else 1 + FirstIndex(s[1..], p)
  }

  /** Replacing one element by another that `p` judges the same way keeps the
      number of elements satisfying `p`. */
  lemma CountReplace<T>(s: seq<T>, i: nat, x: T, p: T -> bool)
    requires i < |s| && p(x) == p(s[i])
    ensures Count(s[i := x], p) == Count(s, p)
  {
    var a, b := s[..i], s[i + 1..];
    assert s == a + [s[i]] + b;
    assert s[i := x] == a + [x] + b;
    FilterAppend(a + [s[i]], b, p);
    FilterAppend(a + [x], b, p);
    FilterSnoc(a, s[i], p);
    FilterSnoc(a, x, p);
  }

  /** The first match is the one position with no match before it and a match
      at it (or the end, when nothing matches). */
  lemma FirstIndexIs<T>(s: seq<T>, p: T -> bool, k: nat)
    requires k <= |s|
    requires forall j :: 0 <= j < k ==> !p(s[j])
    requires k < |s| ==> p(s[k])
    ensures FirstIndex(s, p) == k
  {
    var i := FirstIndex(s, p);
    assert i < |s| ==> p(s[i]);
  }

  /** Replacing the first match by another matching element keeps it first. */
  lemma FirstIndexReplaced<T>(s: seq<T>, i: nat, x: T, p: T -> bool)
    requires i == FirstIndex(s, p) && i < |s| && p(x)
    ensures FirstIndex(s[i := x], p) == i
  {
    var s' := s[i := x];
    assert forall j :: 0 <= j < i ==> s'[j] == s[j];
    FirstIndexIs(s', p, i);
  }

  /** A sequence extended at the end keeps its first match; one with no
      match finds the new element when it matches and nothing otherwise. */
  lemma FirstIndexAppended<T>(s: seq<T>, x: T, p: T -> bool)
    ensures FirstIndex(s, p) < |s| ==> FirstIndex(s + [x], p) == FirstIndex(s, p)
    ensures FirstIndex(s, p) == |s| && p(x) ==> FirstIndex(s + [x], p) == |s|
    ensures FirstIndex(s, p) == |s| && !p(x) ==> FirstIndex(s + [x], p) == |s| + 1
  {
    var i := FirstIndex(s, p);
    var s' := s + [x];
    assert forall j :: 0 <= j < |s| ==> s'[j] == s[j];
    if i < |s| {
      FirstIndexIs(s', p, i);
    } else if p(x) {
      FirstIndexIs(s', p, |s|);
    } else {
      FirstIndexIs(s', p, |s| + 1);
    }
  }

  /** Changing a position to another element `p` judges the same way does not
      move the first match. */
  lemma FirstIndexAgree<T>(s: seq<T>, s': seq<T>, i: nat, p: T -> bool)
    requires |s'| == |s| && i < |s|
    requires forall k :: 0 <= k < |s| && k != i ==> s'[k] == s[k]
    requires p(s'[i]) == p(s[i])
    ensures FirstIndex(s', p) == FirstIndex(s, p)
  {
    var a := FirstIndex(s, p);
    assert forall k :: 0 <= k < |s| ==> p(s'[k]) == p(s[k]);
    FirstIndexIs(s', p, a);
  }
}

=== FILE: store.dfy ===
/** The flat-file record store: one JSON array per entity kind, read whole,
    changed in memory and written back whole. A file's contents are a `Table`
    passed in and returned; every operation is a pure function from the old
    table to its result and the new table. */
module Store {
  import opened Values
  import opened Text
  import opened Seqs

  type Table = seq<Record>

  /** Every row carries an `id` key. The update and delete scans read
      `row['id']`, which raises `KeyError` on a row without one. */
  predicate HasIds(t: Table) {
    forall i :: 0 <= i < |t| ==> "id" in t[i]
  }

  /** The row's `id` equals `id` (`row['id'] == id`). */
  predicate IdIs(r: Record, id: int) {
    "id" in r && r["id"] == Int(id)
  }

  function IdPred(id: int): Record -> bool {
    r => IdIs(r, id)
  }

  function NotIdPred(id: int): Record -> bool {
    r => !IdIs(r, id)
  }

  /** The id an `add_*` call gives its new row: one more than the table length. */
  function NextId(t: Table): int {
    |t| + 1
  }

  /** A row together with the table it was written into. */
  datatype Added = Added(row: Record, table: Table)

  /** `add_*`: the new row is `fields` plus `id = len(table) + 1`, appended at
      the end; the rows already there are untouched. */
  function Add(t: Table, fields: Record): (a: Added)
    requires "id" !in fields
    ensures a.table == t + [a.row]
    ensures |a.table| == |t| + 1 && a.table[..|t|] == t
    ensures IdIs(a.row, |t| + 1)
    ensures a.row.Keys == fields.Keys + {"id"}
    ensures forall k :: k in fields ==> a.row[k] == fields[k]
  {
    var row := fields["id" := Int(NextId(t))];
    Added(row, t + [row])
  }

  /** `row.get(key, '')` as a string. A present non-string value would make
      the source's `.lower()` raise; `TextFieldsOk` rules that out. */
  function TextOf(r: Record, k: string): string {
    if k in r && r[k].Str? then r[k].s else ""
  }

  /** Every row's searched fields are absent or strings. */
  predicate TextFieldsOk(t: Table, keys: seq<string>) {
    forall i, j :: 0 <= i < |t| && 0 <= j < |keys| && keys[j] in t[i] ==> t[i][keys[j]].Str?
  }

  /** The fields a filtered search reads are absent or strings. The `or`
      chain tries the keys in order and stops at the first that contains the
      needle, so a later key of a row is read only when every earlier key of
      that row missed. */
  predicate SearchReadable(t: Table, keys: seq<string>, needle: string) {
    forall i, j :: 0 <= i < |t| && 0 <= j < |keys| && keys[j] in t[i] && MissedBefore(t[i], keys, j, needle)
      ==> t[i][keys[j]].Str?
  }

  /** None of the first `j` keys of the row contains the needle. */
  predicate MissedBefore(r: Record, keys: seq<string>, j: int, needle: string)
    requires j <= |keys|
  {
    forall m :: 0 <= m < j ==> !Contains(Lower(TextOf(r, keys[m])), Lower(needle))
  }

  /** `needle.lower() in row.get(key, '').lower()` for one of the keys. */
  predicate MatchesText(r: Record, keys: seq<string>, needle: string) {
    exists k :: k in keys && Contains(Lower(TextOf(r, k)), Lower(needle))
  }

  function MatchPred(keys: seq<string>, needle: string): Record -> bool {
    r => MatchesText(r, keys, needle)
  }

  /** `if filter_by:` — Python treats `None` and `""` alike as "no filter". */
  predicate NoFilter(f: Option<string>) {
    f.None? || f.value == ""
  }

  /** `get_*`: without a filter the whole table; with one, the rows whose
      searched fields contain the filter case-insensitively, in table order. */
  function Select(t: Table, keys: seq<string>, f: Option<string>): (r: Table)
    requires !NoFilter(f) ==> SearchReadable(t, keys, f.value)
    ensures NoFilter(f) ==> r == t
    ensures !NoFilter(f) ==>
      SelectsInOrder(t, MatchPred(keys, f.value), r, MatchIndices(t, MatchPred(keys, f.value)))
  {
    if NoFilter(f) then t
    else
      var p := MatchPred(keys, f.value);
      FilterSelectsInOrder(t, p);
      Filter(t, p)
  }

  /** `for key, value in kwargs.items(): if key in row: row[key] = value`:
      keys the row already has take the new value, the others are ignored. */
  function Patch(r: Record, kw: Record): (r': Record)
    ensures r'.Keys == r.Keys
    ensures forall k :: k in r && k in kw ==> r'[k] == kw[k]
    ensures forall k :: k in r && k !in kw ==> r'[k] == r[k]
  {
    map k | k in r :: if k in kw then kw[k] else r[k]
  }

  /** The patched row (when one matched) and the table after the write. */
  datatype Updated = Updated(row: Option<Record>, table: Table)

  /** Every row the `update_*` scan reads has an `id`: the rows up to and
      including the first one with `id`, or all rows when none has it. Rows
      after the match are never read. */
  predicate ScanHasIds(t: Table, id: int)
    decreases |t|
  {
    t == [] || ("id" in t[0] && (t[0]["id"] == Int(id) || ScanHasIds(t[1..], id)))
  }

  /** A table whose rows all have ids can be scanned for any id. */
  lemma {:induction false} HasIdsScan(t: Table, id: int)
    requires HasIds(t)
    ensures ScanHasIds(t, id)
    decreases |t|
  {
    if t != [] {
      HasIdsScan(t[1..], id);
    }
  }

  /** `update_*`: scans for the first row with the id, patches it, writes the
      table back and returns the row; returns `None` and writes nothing when
      no row has the id. */
  function UpdateById(t: Table, id: int, kw: Record): (u: Updated)
    requires ScanHasIds(t, id)
    ensures var i := FirstIndex(t, IdPred(id));
      && (u.row.None? <==> i == |t|)
      && (i == |t| ==> u.table == t)
      && (i < |t| ==> u.row == Some(Patch(t[i], kw)) && u.table == t[i := Patch(t[i], kw)])
    decreases |t|
  {
    if t == [] then Updated(None, t)
    else if t[0]["id"] == Int(id) then
      var row := Patch(t[0], kw);
      Updated(Some(row), [row] + t[1..])
    else
      var u := UpdateById(t[1..], id, kw);
      assert FirstIndex(t, IdPred(id)) == 1 + FirstIndex(t[1..], IdPred(id));
      Updated(u.row, [t[0]] + u.table)
  }

  /** `delete_*`: keeps, in order, exactly the rows whose id differs (all rows
      with the id go, not only the first). The source always returns `True`. */
  function DeleteById(t: Table, id: int): (r: Table)
    requires HasIds(t)
    ensures SelectsInOrder(t, NotIdPred(id), r, MatchIndices(t, NotIdPred(id)))
    ensures forall x :: x in r ==> !IdIs(x, id)
  {
    FilterSelectsInOrder(t, NotIdPred(id));
    Filter(t, NotIdPred(id))
  }

  /** Deleting an id no row carries leaves the table as it was. */
  lemma DeleteAbsent(t: Table, id: int)
    requires HasIds(t)
    requires forall i :: 0 <= i < |t| ==> !IdIs(t[i], id)
    ensures DeleteById(t, id) == t
  {
    FilterAll(t, NotIdPred(id));
  }

  /** Every operation keeps every row's `id` key, so a table that starts out
      well-formed stays well-formed. */
  lemma AddKeepsIds(t: Table, fields: Record)
    requires HasIds(t) && "id" !in fields
    ensures HasIds(Add(t, fields).table)
  {
  }

  lemma UpdateKeepsIds(t: Table, id: int, kw: Record)
    requires HasIds(t)
    ensures ScanHasIds(t, id)
    ensures HasIds(UpdateById(t, id, kw).table)
  {
    HasIdsScan(t, id);
    var i := FirstIndex(t, IdPred(id));
    if i < |t| {
      var t' := UpdateById(t, id, kw).table;
      assert forall j :: 0 <= j < |t| && j != i ==> t'[j] == t[j];
    }
  }

  lemma DeleteKeepsIds(t: Table, id: int)
    requires HasIds(t)
    ensures HasIds(DeleteById(t, id))
  {
    var r := DeleteById(t, id);
    forall j | 0 <= j < |r|
      ensures "id" in r[j]
    {
      assert r[j] in r;
    }
  }

  /** Adding keeps the searched text fields well-formed when the new row's are. */
  lemma AddKeepsTextFields(t: Table, fields: Record, keys: seq<string>)
    requires TextFieldsOk(t, keys) && "id" !in fields
    requires forall k :: k in keys && k in fields ==> fields[k].Str?
    requires "id" !in keys
    ensures TextFieldsOk(Add(t, fields).table, keys)
  {
  }

  /** Rows numbered 1, 2, ... n in order: what a table built only by `add_*`
      calls looks like. */
  predicate Sequential(t: Table) {
    forall i :: 0 <= i < |t| ==> IdIs(t[i], i + 1)
  }

  /** Without deletions, `len + 1` numbering keeps ids sequential... */
  lemma AddKeepsSequential(t: Table, fields: Record)
    requires Sequential(t) && "id" !in fields
    ensures Sequential(Add(t, fields).table)
  {
  }

  /** ...and sequential ids are pairwise distinct. */
  lemma SequentialIdsDistinct(t: Table)
    requires Sequential(t)
    ensures forall i, j :: 0 <= i < j < |t| ==> t[i]["id"] != t[j]["id"]
  {
  }

  /** Two rows carrying the same id. */
  predicate HasDuplicateId(t: Table) {
    exists i, j :: 0 <= i < j < |t| && "id" in t[i] && "id" in t[j] && t[i]["id"] == t[j]["id"]
  }

  /** Deleting id 1 from two rows, the first carrying it, keeps the second. */
  lemma DeleteFirstOfTwo(r1: Record, r2: Record)
    requires "id" in r1 && "id" in r2
    requires IdIs(r1, 1) && !IdIs(r2, 1)
    ensures DeleteById([r1, r2], 1) == [r2]
  {
    var p := NotIdPred(1);
    FilterSnoc([], r1, p);
    assert [] + [r1] == [r1];
    FilterSnoc([r1], r2, p);
    assert [r1] + [r2] == [r1, r2];
  }

  /** After a deletion the `len + 1` rule reuses an id still in the table: add
      two rows, delete row 1, add again, and ids 2 and 2 are both present. */
  lemma DeleteThenAddReusesId(fields: Record)
    requires "id" !in fields
    ensures var t1 := Add([], fields).table;
            var t2 := Add(t1, fields).table;
            var t3 := DeleteById(t2, 1);
            var t4 := Add(t3, fields).table;
            |t4| == 2 && IdIs(t4[0], 2) && IdIs(t4[1], 2) && HasDuplicateId(t4)
  {
    var r1, r2 := fields["id" := Int(1)], fields["id" := Int(2)];
    var t1 := Add([], fields).table;
    assert t1 == [r1];
    var t2 := Add(t1, fields).table;
    assert t2 == [r1, r2];
    DeleteFirstOfTwo(r1, r2);
    var t4 := Add([r2], fields).table;
    assert t4 == [r2, r2];
    assert 0 < 1 < |t4| && "id" in t4[0] && "id" in t4[1] && t4[0]["id"] == t4[1]["id"];
  }
}

=== FILE: text.dfy ===
/** The string operations the store and the user table rely on: Python's
    `str.lower()` (restricted to ASCII letters), `str.strip()` and the
    substring test `needle in haystack`. */
module Text {

  /** `c.lower()` for ASCII; every other character is left as it is. */
  function LowerChar(c: char): (d: char)
    ensures 'A' <= c <= 'Z' ==> d as int == c as int + 32
    ensures !('A' <= c <= 'Z') ==> d == c
    ensures !('A' <= d <= 'Z')
  {
    if 'A' <= c <= 'Z' then (c as int + 32) as char else c
  }

  /** `s.lower()`. */
  function Lower(s: string): (r: string)
    ensures |r| == |s|
    ensures forall i :: 0 <= i < |s| ==> r[i] == LowerChar(s[i])
  {
    seq(|s|, i requires 0 <= i < |s| => LowerChar(s[i]))
  }

  /** No upper-case ASCII letter occurs in `s`. */
  predicate IsLowered(s: string) {
    forall i :: 0 <= i < |s| ==> !('A' <= s[i] <= 'Z')
  }

  lemma LowerIsLowered(s: string)
    ensures IsLowered(Lower(s))
  {
  }

  /** Lowering a string that is already lowered changes nothing. */
  lemma LoweredFixpoint(s: string)
    requires IsLowered(s)
    ensures Lower(s) == s
  {
  }

  lemma LowerIdempotent(s: string)
    ensures Lower(Lower(s)) == Lower(s)
  {
    LowerIsLowered(s);
    LoweredFixpoint(Lower(s));
  }

  /** The characters `str.isspace()` accepts. */
  predicate IsSpace(c: char) {
    || '\t' <= c <= '\r'
    || '\U{1C}' <= c <= ' '
    || c == '\U{85}' || c == '\U{A0}' || c == '\U{1680}'
    || '\U{2000}' <= c <= '\U{200A}'
    || c == '\U{2028}' || c == '\U{2029}' || c == '\U{202F}' || c == '\U{205F}' || c == '\U{3000}'
  }

  /** The index of the first non-space character of `s` at or after `i`. */
  function SkipSpaces(s: string, i: nat): (j: nat)
    requires i <= |s|
    ensures i <= j <= |s|
    ensures forall k :: i <= k < j ==> IsSpace(s[k])
    ensures j < |s| ==> !IsSpace(s[j])
    decreases |s| - i
  {
    if i < |s| && IsSpace(s[i]) then SkipSpaces(s, i + 1) else i
  }

  /** The end of `s[lo..hi]` once its trailing whitespace is dropped. */
  function TrimEnd(s: string, lo: nat, hi: nat): (k: nat)
    requires lo <= hi <= |s|
    ensures lo <= k <= hi
    ensures forall m :: k <= m < hi ==> IsSpace(s[m])
    ensures k > lo ==> !IsSpace(s[k - 1])
    decreases hi
  {
    if hi > lo && IsSpace(s[hi - 1]) then TrimEnd(s, lo, hi - 1) else hi
  }

  /** Where `s.strip()` starts and ends: everything before and after is
      whitespace, and a non-empty result starts and ends with a non-space. */
  function StripBounds(s: string): (b: (nat, nat))
    ensures b.0 <= b.1 <= |s|
    ensures forall k :: 0 <= k < b.0 ==> IsSpace(s[k])
    ensures forall k :: b.1 <= k < |s| ==> IsSpace(s[k])
    ensures b.0 < b.1 ==> !IsSpace(s[b.0]) && !IsSpace(s[b.1 - 1])
    ensures b.0 == b.1 ==> forall k :: 0 <= k < |s| ==> IsSpace(s[k])
  {
    var lo := SkipSpaces(s, 0);
    (lo, TrimEnd(s, lo, |s|))
  }

  /** `s.strip()`. */
  function Strip(s: string): (r: string)
    ensures |r| <= |s|
    ensures r != [] ==> !IsSpace(r[0]) && !IsSpace(r[|r| - 1])
  {
    var b := StripBounds(s);
    s[b.0..b.1]
  }

  /** A slice of a lowered string is lowered. */
  lemma SliceOfLowered(s: string, lo: int, hi: int)
    requires IsLowered(s) && 0 <= lo <= hi <= |s|
    ensures IsLowered(s[lo..hi])
  {
  }

  /** The normalised e-mail `Strip(Lower(e))` is already lower case, so a
      second lowering (as done on stored addresses) leaves it unchanged. */
  lemma NormalisedIsLowered(e: string)
    ensures IsLowered(Strip(Lower(e)))
    ensures Lower(Strip(Lower(e))) == Strip(Lower(e))
  {
    var l := Lower(e);
    var b := StripBounds(l);
    LowerIsLowered(e);
    SliceOfLowered(l, b.0, b.1);
    LoweredFixpoint(Strip(l));
  }

  /** `needle` occurs at position `i` of `hay`. */
  predicate OccursAt(hay: string, needle: string, i: int) {
    0 <= i && i + |needle| <= |hay| && hay[i..i + |needle|] == needle
  }

  /** `needle in hay`, computed by sliding a window along `hay`. */
  function Contains(hay: string, needle: string): bool
    decreases |hay|
  {
    if |needle| > |hay| then false
    else if hay[..|needle|] == needle then true
    else Contains(hay[1..], needle)
  }

  /** The sliding test agrees with the definition of a substring occurrence. */
  lemma {:induction false} ContainsSpec(hay: string, needle: string)
    ensures Contains(hay, needle) <==> exists i :: OccursAt(hay, needle, i)
    decreases |hay|
  {
    if |needle| > |hay| {
      assert forall i :: !OccursAt(hay, needle, i);
    } else if hay[..|needle|] == needle {
      assert OccursAt(hay, needle, 0);
    } else {
      ContainsSpec(hay[1..], needle);
      if Contains(hay[1..], needle) {
        var i :| OccursAt(hay[1..], needle, i);
        assert hay[1..][i..i + |needle|] == hay[i + 1..i + 1 + |needle|];
        assert OccursAt(hay, needle, i + 1);
      } else {
        forall i | OccursAt(hay, needle, i)
          ensures false
        {
          assert i != 0;
          assert hay[1..][i - 1..i - 1 + |needle|] == hay[i..i + |needle|];
          assert OccursAt(hay[1..], needle, i - 1);
        }
      }
    }
  }

  /** A string contains itself. */
  lemma ContainsSelf(s: string)
    ensures Contains(s, s)
  {
    assert s[..|s|] == s;
  }
}

=== FILE: values.dfy ===
/** Values shared by every part of the model: the optional and error-carrying
    wrappers, and the JSON value universe in which the record store and the
    AI gateway keep their dictionaries. */
module Values {

  /** Python's `None` or a present value. */
  datatype Option<+T> = None | Some(value: T) {
    function GetOr(default: T): T {
      match this
      case Some(v) => v
      case None => default
    }
  }

  /** The `{"success": True, ...}` / `{"success": False, "error": ...}` convention
      of the auth and store helpers. */
  datatype Result<+T> = Ok(value: T) | Fail(error: string)

  /** A JSON value as `json.load` produces it. Numbers are integers only. */
  datatype Json =
    | Null
    | Bool(b: bool)
    | Int(i: int)
    | Str(s: string)
    | Arr(items: seq<Json>)
    | Obj(fields: map<string, Json>)

  /** One row of a JSON array file: a Python dict with string keys. */
  type Record = map<string, Json>

  /** `d.get(k)`: the stored value, or `None` when the key is absent. */
  function Get(r: Record, k: string): (v: Json)
    ensures k !in r ==> v == Null
    ensures k in r ==> v == r[k]
  {
    if k in r then r[k] else Null
  }

  /** `d.get(k, default)`. */
  function GetOr(r: Record, k: string, default: Json): (v: Json)
    ensures k !in r ==> v == default
    ensures k in r ==> v == r[k]
  {
    if k in r then r[k] else default
  }

  /** Python truthiness of a JSON value. */
  predicate Truthy(v: Json) {
    match v
    case Null => false
    case Bool(b) => b
    case Int(i) => i != 0
    case Str(s) => s != ""
    case Arr(xs) => xs != []
    case Obj(m) => m != map[]
  }

  /** `str(v)` for the scalar values; containers are rendered by a placeholder
      (their exact Python `repr` is not part of this model). */
  function Show(v: Json): string {
    match v
    case Null => "None"
    case Bool(b) => if b then "True" else "False"
    case Int(i) => IntToString(i)
    case Str(s) => s
    case Arr(_) => "[...]"
    case Obj(_) => "{...}"
  }

  function DigitChar(d: nat): (c: char)
    requires d < 10
    ensures '0' <= c <= '9' && c as int - '0' as int == d
  {
    "0123456789"[d]
  }

  /** Every character is a decimal digit. */
  predicate IsDigits(s: string) {
    forall k :: 0 <= k < |s| ==> '0' <= s[k] <= '9'
  }

  /** The number a string of decimal digits reads as, most significant first. */
  ghost function DigitsValue(s: string): nat
    requires IsDigits(s)
    decreases |s|
  {
    if s == [] then 0
    else DigitsValue(s[..|s| - 1]) * 10 + (s[|s| - 1] as int - '0' as int)
  }

  /** Decimal digits of a natural number, with no leading zero. */
  function NatToString(n: nat): (s: string)
    ensures |s| > 0 && IsDigits(s) && DigitsValue(s) == n
    ensures s[0] == '0' ==> s == "0"
    decreases n
  {
    if n < 10 then [DigitChar(n)]
    else
      var hi := NatToString(n / 10);
      var s := hi + [DigitChar(n % 10)];
      assert s[..|s| - 1] == hi;
      s
  }

  /** Decimal rendering of an integer, as `str(i)` prints it: a minus sign
      exactly for negatives, then the digits of the magnitude, with no
      leading zero. */
  function IntToString(i: int): (s: string)
    ensures |s| > 0
    ensures (s[0] == '-') <==> i < 0
    ensures i < 0 ==> |s| > 1 && IsDigits(s[1..]) && DigitsValue(s[1..]) == -i && s[1] != '0'
    ensures i >= 0 ==> IsDigits(s) && DigitsValue(s) == i && (s[0] == '0' ==> s == "0")
  {
    if i < 0 then
      var d := NatToString(-i);
      assert ("-" + d)[1..] == d;
      "-" + d
    else NatToString(i)
  }
}
